=== FILE: README.md ===
# osx_pkg_installer, modelled in Dafny

This project models the reconciliation engine of the Ansible module
`osx_pkg_installer`. The module installs or removes a macOS package with the
`pkgutil` and `installer` tools. It reads package receipts from `pkgutil`
transcripts, decides whether the package is present, and then installs it,
removes its files and drops its receipt, or does nothing. The model covers:

- reading `key: value` fields from `pkgutil --pkg-info` output (`parse_out`,
  `parse_pkg_info`);
- building the manifest of a package from `pkgutil --files` output
  (`parse_package_files`);
- probing for a package, listing all packages and diffing two listings
  (`pkg_info`, `is_present`, `list_all_packages`, `find_new_packages`);
- the command log (`run_command`);
- installing (the file guard and the installer run) and uninstalling (the
  removal loop, then `pkgutil --forget`);
- `run_module`: the defaults, the two parameter gates, the survey, the
  `changed` flag, check mode, the install/uninstall decision with its
  confidence gate, and the way the run ends.

The outside world is the `HostModel.Host` object:

- Commands are answered by a fixed script `respond(n, cmd)`. The script is
  indexed by the command's position in the trace of events.
- The filesystem is a map from resolved paths to `File` or `Dir`.
- Every command run and every removal is appended to the trace `events`.

The module's two dictionaries (`result` and `verbose_result`) are the fields of
`PkgInstaller.Installer`. Each dictionary key becomes an `Option` field, which
is `None` while the key is absent. A log entry is keyed by its command's
position in the trace. That key is fresh and increasing, as the UTC
timestamps of the source are meant to be.

Python exceptions become `Result` values. A fatal command failure raised
inside `AnsibleModule.run_command` (when `check_rc` is set) ends the module
before the module's own error handler sees it. It is modelled as the
`Terminated` outcome, with nothing added to the command log. Every other
exception is caught by `run_module`, attached to the result as `error`, and
ends the run as `Failed`.

Three details of the code shape the model:

- `run_command` (lines 156-167 of `osx_pkg_installer.py`) writes its log entry
  only after `module.run_command` has returned. A command that fails with
  `check_rc` set ends the module inside that call, so no entry is written for
  it.
- `parse_pkg_info` builds the root directory as
  `realpath(volume + '/' + location)` (lines 188-189). The comment there
  explains why `os.path.join` is not used: it would drop the volume for an
  absolute location. The root therefore lies beneath the volume, even for an
  absolute location, unless the location climbs out of it with `..`.
- The comment in `parse_package_files` (lines 218-220) speaks of protecting
  `/`, `/Applications`, `~` and `~/Applications` from deletion. The guard
  below it (line 221) drops only the exact lines `''` and `'Applications'`
  before joining them onto the root.

The command log only grows: `LogGrows` in `installer.dfy` says that an entry,
once written, stays as it was, and that every new entry is keyed at a trace
position at or after the start of the operation. Each operation that runs a
command through `run_command` states the exact entry it adds.

`Confined` in `installer.dfy` states the central safety property:

- a run in check mode, or on a package already in the desired state, only
  queries `pkgutil` and leaves the filesystem alone;
- the installer runs only for a package that should be present and was not;
- files and receipts are removed only for a package that should be absent, was
  present, and was confidently removed.

## Model

| member | source | states |
|---|---|---|
| Text.StripShape | lib/ansible/modules/packaging/os/osx_pkg_installer.py:289 | `strip()` returns a slice of its input, with whitespace only on both sides cut off and no whitespace left at either end |
| Text.StripSurrounded | lib/ansible/modules/packaging/os/osx_pkg_installer.py:289 | blank padding around a text without edge whitespace is exactly what `strip()` removes |
| Text.StripBlank | lib/ansible/modules/packaging/os/osx_pkg_installer.py:289 | an all-blank listing strips to the empty string |
| Text.Split | lib/ansible/modules/packaging/os/osx_pkg_installer.py:217 | `split('\n')` returns at least one piece, no piece contains the separator, and joining the pieces back gives the input |
| Text.SplitJoinWith | lib/ansible/modules/packaging/os/osx_pkg_installer.py:289 | `split` inverts `join` on pieces free of the separator |
| Text.SplitConcat | lib/ansible/modules/packaging/os/osx_pkg_installer.py:217 | splitting at a separator splits the two sides independently |
| Text.LastIndexOfFinds | lib/ansible/modules/packaging/os/osx_pkg_installer.py:171-172 | the greedy `[\s\S]*` prefix makes the match start at the last occurrence of the key, and finds none only when there is none |
| Text.TakeLine | lib/ansible/modules/packaging/os/osx_pkg_installer.py:171 | `(.*)` captures the longest newline-free prefix, which stops at a newline or the end |
| Text.ParseIntShowInt | lib/ansible/modules/packaging/os/osx_pkg_installer.py:180 | `int` reads back every rendered integer |
| Paths.JoinPathShape | lib/ansible/modules/packaging/os/osx_pkg_installer.py:222 | `os.path.join` keeps an absolute tail as is, and otherwise appends a relative tail intact (a trailing `/` included) after one separator that is never doubled |
| Paths.Realpath | lib/ansible/modules/packaging/os/osx_pkg_installer.py:189 | `realpath` always returns an absolute path |
| Paths.RealpathIdempotent | lib/ansible/modules/packaging/os/osx_pkg_installer.py:189 | `realpath` is idempotent and names the same location as its input |
| Paths.ResolveRoot | lib/ansible/modules/packaging/os/osx_pkg_installer.py:340 | the volume `/` is the root |
| Paths.ResolveSlashConcat | lib/ansible/modules/packaging/os/osx_pkg_installer.py:188-189 | `a + '/' + b` names `b` walked from `a`, even for an absolute `b` |
| Paths.ResolveJoinPath | lib/ansible/modules/packaging/os/osx_pkg_installer.py:222 | joining a relative tail names that tail walked from the head |
| Paths.ResolveJoinComponent | lib/ansible/modules/packaging/os/osx_pkg_installer.py:350 | joining one component names that component beneath the head |
| Paths.LookupShrunk | lib/ansible/modules/packaging/os/osx_pkg_installer.py:266-272 | a path that is gone stays gone while entries are only removed |
| HostModel.Host.Run | lib/ansible/modules/packaging/os/osx_pkg_installer.py:157 | the runner returns the scripted answer, or fails the module on a nonzero status when `check_rc` is set; either way one command is appended to the trace |
| HostModel.Host.RemoveTree | lib/ansible/modules/packaging/os/osx_pkg_installer.py:269 | `rmtree` removes the directory and everything beneath it |
| HostModel.Host.RemoveFile | lib/ansible/modules/packaging/os/osx_pkg_installer.py:272 | `os.remove` removes exactly one entry |
| Removal.Visit | lib/ansible/modules/packaging/os/osx_pkg_installer.py:267-272 | a directory is removed as a tree, a file on its own, and a missing path is skipped, each exactly when the lookup says so |
| Removal.RemovalLog | lib/ansible/modules/packaging/os/osx_pkg_installer.py:267-272 | one removal line per removal, in order, naming the kind and the path |
| Removal.RemovalLogConcat | lib/ansible/modules/packaging/os/osx_pkg_installer.py:265-272 | the removal record only grows by appending |
| Removal.ApplyShrinks | lib/ansible/modules/packaging/os/osx_pkg_installer.py:269-272 | a removal only takes entries away |
| Removal.VisitShrinks | lib/ansible/modules/packaging/os/osx_pkg_installer.py:267-272 | one turn of the loop only takes entries away |
| Removal.SweepShrinks | lib/ansible/modules/packaging/os/osx_pkg_installer.py:266-272 | the whole loop only takes entries away |
| Removal.VisitRemoves | lib/ansible/modules/packaging/os/osx_pkg_installer.py:267-272 | the path just visited no longer exists |
| Removal.SweepGone | lib/ansible/modules/packaging/os/osx_pkg_installer.py:266-272 | after the loop no manifest path exists |
| Removal.SweepSpares | lib/ansible/modules/packaging/os/osx_pkg_installer.py:266-272 | an entry that no manifest path covers survives the loop unchanged |
| Removal.SweepEventsRemovals | lib/ansible/modules/packaging/os/osx_pkg_installer.py:266-272 | every removal the loop performs is of a manifest path, no two removals are of the same path, and there are at most as many removals as paths |
| Removal.SweepStep | lib/ansible/modules/packaging/os/osx_pkg_installer.py:266-272 | one more manifest path is one more visit |
| Trace.KindsDisjoint | lib/ansible/modules/packaging/os/osx_pkg_installer.py:196-272 | a `pkgutil` query, an installer run and a removal are different kinds of event |
| Trace.CommandKinds | lib/ansible/modules/packaging/os/osx_pkg_installer.py:199-278 | receipt, file and package queries are probes; `--forget` is a removal; the installer command installs |
| Trace.ProbesAreHarmless | lib/ansible/modules/packaging/os/osx_pkg_installer.py:365-377 | a stretch of queries neither installs nor removes |
| Trace.SweepKinds | lib/ansible/modules/packaging/os/osx_pkg_installer.py:266-272 | the removal loop only removes |
| Trace.UninstallTrace | lib/ansible/modules/packaging/os/osx_pkg_installer.py:266-273 | removals followed by `--forget` run no installer |
| Trace.RemovalRunFrom | lib/ansible/modules/packaging/os/osx_pkg_installer.py:384-387 | `package_files` followed by a successful `uninstall` leaves exactly `RemovalRun` in the trace |
| Trace.RemovalRunShape | lib/ansible/modules/packaging/os/osx_pkg_installer.py:262-273 | in a removal run the receipt is forgotten once, as the last step, after every removal; four queries come first, then removals of manifest paths with no path removed twice; no installer runs |
| Trace.RunShape | lib/ansible/modules/packaging/os/osx_pkg_installer.py:262-273 | the same shape for any sequence of distinct removals of manifest paths |
| Transcript.ParseOut | lib/ansible/modules/packaging/os/osx_pkg_installer.py:170-176 | a missing key raises the key-not-found error carrying the key and the whole output |
| Transcript.ParseOutMeaning | lib/ansible/modules/packaging/os/osx_pkg_installer.py:170-176 | the key is found exactly when `key: ` occurs, and the value is the rest of the line after its last occurrence, free of newlines |
| Transcript.ParseOutLastLine | lib/ansible/modules/packaging/os/osx_pkg_installer.py:170-176 | the last `key: ` line wins, whatever precedes it |
| Transcript.TakeLineOfLine | lib/ansible/modules/packaging/os/osx_pkg_installer.py:171 | the value captured on a line that ends at a newline is that line |
| Transcript.ParsePkgInfoMeaning | lib/ansible/modules/packaging/os/osx_pkg_installer.py:179-192 | a missing install time fails first with key-not-found and a non-integer one fails the conversion; the receipt parses exactly when every field is found and the time is an integer; each field is `parse_out` of its key and the root is `realpath(volume + '/' + location)` |
| Transcript.RootDirFromVolume | lib/ansible/modules/packaging/os/osx_pkg_installer.py:188-189 | the root directory is the location walked from the resolved volume, even for an absolute location; it lies beneath the volume unless the location climbs out with `..` |
| Transcript.RootDirOnStartupVolume | lib/ansible/modules/packaging/os/osx_pkg_installer.py:189 | on volume `/`, a location `Library/...` gives the root `/Library/...` without a doubled slash |
| Transcript.ManifestOne | lib/ansible/modules/packaging/os/osx_pkg_installer.py:221-222 | one line yields its join onto the root unless it is `''` or `Applications` |
| Transcript.ManifestConcat | lib/ansible/modules/packaging/os/osx_pkg_installer.py:215-223 | the manifest keeps the input order |
| Transcript.ManifestMembers | lib/ansible/modules/packaging/os/osx_pkg_installer.py:215-223 | exactly the kept lines appear in the manifest, each joined onto the root |
| Transcript.ManifestLength | lib/ansible/modules/packaging/os/osx_pkg_installer.py:215-223 | the manifest is never longer than the listing |
| Transcript.ParsePackageFiles | lib/ansible/modules/packaging/os/osx_pkg_installer.py:215-223 | the append loop builds exactly the manifest of the lines of the output |
| Transcript.PackageList | lib/ansible/modules/packaging/os/osx_pkg_installer.py:289 | `strip().split('\n')` gives at least one id, none holding a newline, and the ids joined back give the stripped listing |
| Transcript.PackageListOfLines | lib/ansible/modules/packaging/os/osx_pkg_installer.py:289 | a padded listing of ids, one per line, reads back as exactly those ids |
| Transcript.NewPackages | lib/ansible/modules/packaging/os/osx_pkg_installer.py:296 | the new ids are exactly those in the latest listing and not in the baseline, each once |
| Installation.Probe | lib/ansible/modules/packaging/os/osx_pkg_installer.py:202-211 | the package is absent exactly when the query fails; it is present, with the parsed receipt, exactly when the query succeeds and the receipt parses; otherwise the parse error is raised |
| Installation.FilesOutcome | lib/ansible/modules/packaging/os/osx_pkg_installer.py:226-232 | a receipt error comes first, then a failed listing, then a missing root directory; otherwise the result is the manifest of the listing under the root |
| Installation.Defaults | lib/ansible/modules/packaging/os/osx_pkg_installer.py:338-350 | root works on `/` and targets `/`, anyone else works in the home directory and targets it; given values win; the marker defaults to the app bundle |
| Installation.RootBundlePath | lib/ansible/modules/packaging/os/osx_pkg_installer.py:350 | for root the marker is `/Applications/<app>.app` |
| Installation.AbsoluteBundlePath | lib/ansible/modules/packaging/os/osx_pkg_installer.py:350 | an absolute app name replaces the volume in the marker |
| Installation.BundlePathBeneathVolume | lib/ansible/modules/packaging/os/osx_pkg_installer.py:350 | the marker is `<app>.app` inside the volume's `Applications` |
| Installation.UninstalledGone | lib/ansible/modules/packaging/os/osx_pkg_installer.py:262-272 | once `uninstall` has listed and swept, no listed path is found any more |
| PkgInstaller.LogGrowsTransitive | lib/ansible/modules/packaging/os/osx_pkg_installer.py:156-167 | growth of the command log in two stretches is growth of the log |
| PkgInstaller.ConfinedAfterProbes | lib/ansible/modules/packaging/os/osx_pkg_installer.py:365-393 | a stretch of queries followed by a confined stretch is confined as a whole |
| PkgInstaller.SettledEnds | lib/ansible/modules/packaging/os/osx_pkg_installer.py:378-405 | the message plays no part in how the run ends: a `Settled` result ends as the install or the uninstall it came from, so check mode exits, an installer failure ends the run unhandled, and a failed `--forget` likewise |
| PkgInstaller.Installer.constructor | lib/ansible/modules/packaging/os/osx_pkg_installer.py:311-321 | a run starts with `changed=False`, an empty message and an empty verbose record |
| PkgInstaller.Installer.RunCommand | lib/ansible/modules/packaging/os/osx_pkg_installer.py:156-167 | returns the answer unchanged and adds exactly one log entry, recording command, `check_rc` and answer under a fresh key, keeping the earlier ones |
| PkgInstaller.Installer.PkgInfo | lib/ansible/modules/packaging/os/osx_pkg_installer.py:195-212 | runs the receipt query without `check_rc`, returns `Probe` of its answer and records it |
| PkgInstaller.Installer.ListFiles | lib/ansible/modules/packaging/os/osx_pkg_installer.py:229-232 | runs the listing with `check_rc`, returns what `FilesOutcome` gives for the known receipt, records the manifest on success, and adds the listing's log entry only when it succeeded |
| PkgInstaller.Installer.PackageFiles | lib/ansible/modules/packaging/os/osx_pkg_installer.py:226-232 | runs the receipt query, then the file listing only when the receipt parses; returns what `FilesOutcome` gives; records `pkg_info` from the query and `pkg_files` from a successful listing; the log becomes `FilesLog`, the query's entry and then the listing's; only queries run |
| PkgInstaller.Installer.ForgetPackage | lib/ansible/modules/packaging/os/osx_pkg_installer.py:234-239 | runs `--forget` with `check_rc`: a nonzero status fails with `ProcessFailed` and records nothing; otherwise the answer is returned, recorded as `forget` and added as one log entry |
| PkgInstaller.Installer.IsPresent | lib/ansible/modules/packaging/os/osx_pkg_installer.py:241-248 | with a package id, runs the receipt query, returns presence as `Probe` gives it and records `pkg_info` and the query's log entry, the marker not consulted; without one, returns whether the marker exists, with nothing run and nothing recorded |
| PkgInstaller.Installer.Install | lib/ansible/modules/packaging/os/osx_pkg_installer.py:251-259 | a package path that does not resolve to a file fails with `PkgFileNotFound` and nothing run; otherwise the installer runs once; a nonzero status fails with `ProcessFailed` and no log entry, a zero one succeeds and adds its log entry; the result is `InstallResult` of the state it started from |
| PkgInstaller.Installer.RemoveIfPresent | lib/ansible/modules/packaging/os/osx_pkg_installer.py:267-272 | one loop turn removes what is there and records a line only for an entry that existed |
| PkgInstaller.Installer.VisitAll | lib/ansible/modules/packaging/os/osx_pkg_installer.py:266-272 | from an empty removal record, visiting each listed path in order leaves the filesystem, trace and record that the sweep functions give |
| PkgInstaller.Installer.RemoveFiles | lib/ansible/modules/packaging/os/osx_pkg_installer.py:265-272 | the loop leaves the filesystem, trace and removal record the sweep functions give, and no manifest path exists afterwards |
| PkgInstaller.Installer.Sweep | lib/ansible/modules/packaging/os/osx_pkg_installer.py:263-272 | records the manifest as `files`, then leaves the filesystem, trace and removal record the sweep functions give; the sweep runs no installer and leaves no manifest path |
| PkgInstaller.Installer.Purge | lib/ansible/modules/packaging/os/osx_pkg_installer.py:263-273 | records the manifest as `files`, sweeps it (the filesystem, trace and removal record the sweep functions give, no manifest path left), then issues `--forget` once after every removal; the result is `ForgetAt` of the state it started from, so it succeeds exactly when `--forget` exits 0, and then records its answer and its log entry; no installer runs |
| PkgInstaller.Installer.Uninstall | lib/ansible/modules/packaging/os/osx_pkg_installer.py:262-274 | the result is `UninstallResult`: the listing's error, or the run of `--forget` after the sweep; the run is `Uninstalled`: a failed listing leaves the filesystem as it was, a successful one has its manifest recorded as `files` and `pkg_files`, swept and gone, whether or not `--forget` then succeeds; then the trace is the two queries, the removals in manifest order, then `--forget`; no installer runs; the log only grows |
| PkgInstaller.Installer.RemoveConfidently | lib/ansible/modules/packaging/os/osx_pkg_installer.py:387-388 | after the branch's own listing, `uninstall` gives `UninstallResult` from the next trace position and is `Uninstalled` from there; on success the trace since the branch began is exactly `RemovalRun` and no manifest path is left |
| PkgInstaller.Installer.ListAllPackages | lib/ansible/modules/packaging/os/osx_pkg_installer.py:277-291 | bypasses the command log, records the answer, raises on a nonzero status, otherwise returns `strip().split('\n')` and adds one snapshot under a fresh key |
| PkgInstaller.Installer.FindNewPackages | lib/ansible/modules/packaging/os/osx_pkg_installer.py:294-297 | takes a fresh listing and records its answer; on success records the new snapshot and returns and records the ids of the fresh listing missing from the baseline; a failed listing raises `ListingFailed` and records no difference |
| PkgInstaller.Installer.Baseline | lib/ansible/modules/packaging/os/osx_pkg_installer.py:365-366 | the original listing is taken and its answer recorded; on success its ids are recorded as the original list and as a new snapshot; only a query runs |
| PkgInstaller.Installer.Detect | lib/ansible/modules/packaging/os/osx_pkg_installer.py:368-371 | runs `is_present`; its result is what `Detected` gives for the answer; records whether the package was present, `pkg_info` and the query's log entry; sets `changed` to whether presence differs from the desired state |
| PkgInstaller.Installer.Survey | lib/ansible/modules/packaging/os/osx_pkg_installer.py:365-371 | the listing, then the presence probe only when the listing succeeded; once the parameter checks pass, the result is what `Presence` gives; the result, the original list, the snapshot, the listing's answer, `pkg_info` and the query's log entry are those the scripted answers give; only queries run |
| PkgInstaller.Installer.RemoveBranch | lib/ansible/modules/packaging/os/osx_pkg_installer.py:384-393 | lists the files; a failed listing fails with its error and changes nothing on disk; without confidence the run fails with `NotConfident` and the files attached, leaves the records `package_files` leaves, and only queries; with confidence and a successful listing the result is what `uninstall` gives (`UninstallResult`, after the two queries of the listing) and the package is `Uninstalled`: its manifest recorded, swept and gone; on success the trace since the start is exactly `RemovalRun` |
| PkgInstaller.Installer.Act | lib/ansible/modules/packaging/os/osx_pkg_installer.py:378-393 | nothing is done for a package in the desired state; a missing package to install gets what `install` gives (`InstallResult`: refused when its path is not a file, otherwise the installer's status decides), with one installer run; removals happen only for a present package confidently removed, and then the result is `UninstallResult` and the package `Uninstalled`; without confidence the files are attached; a confident removal that succeeds runs exactly `RemovalRun` (the four queries, the sweep's removals of the manifest, then one `--forget`); the filesystem is unchanged or exactly the sweep of the recorded manifest |
| PkgInstaller.Installer.Decide | lib/ansible/modules/packaging/os/osx_pkg_installer.py:374-393 | in check mode the run succeeds with the check-mode message and nothing more runs; otherwise the action; the result is `Settled`: an install gives what `install` gives, a confident removal what `uninstall` gives, with the package `Uninstalled`; on success the message for the run; the run since the survey began stays `Confined`; without confidence the failure with the listed files; a confident removal that succeeds runs exactly `RemovalRun`; the filesystem is unchanged or exactly the sweep of the recorded manifest |
| PkgInstaller.Installer.Reconcile | lib/ansible/modules/packaging/os/osx_pkg_installer.py:365-393 | `originally_present` is what `Presence` gives for the survey's answers, and `changed` is whether it differs from the desired state; a converged package succeeds; check mode only queries and succeeds once presence is known; the run is `Confined`; the result is `Settled` from the start of the survey: an install gives what `install` gives, a confident removal what `uninstall` gives, with the package `Uninstalled`; a package to remove without confidence fails with `NotConfident` or the listing's error, with its files attached; a confident removal that succeeds runs exactly, after the survey's two queries, `RemovalRun`; the filesystem is unchanged or exactly the sweep of the recorded manifest |
| PkgInstaller.Installer.Attempt | lib/ansible/modules/packaging/os/osx_pkg_installer.py:356-393 | the parameter gates fail with nothing run; otherwise what `Reconcile` states, including `Settled`, the exact removal run and the swept filesystem |
| PkgInstaller.Installer.Configure | lib/ansible/modules/packaging/os/osx_pkg_installer.py:335-354 | records the desired state and the defaults for volume, target and marker |
| PkgInstaller.Installer.Conclude | lib/ansible/modules/packaging/os/osx_pkg_installer.py:395-405 | the outcome is `Ending` of the result: success exits with the joined messages; a fatal command failure ends the run unhandled; any other error is attached and fails the run; `error` is set exactly for a failed run |
| PkgInstaller.Installer.Execute | lib/ansible/modules/packaging/os/osx_pkg_installer.py:356-405 | the gates fail the run with nothing run; presence and `changed` as `Presence` gives them; a converged package exits; the run `Ends` as `Settled` says: check mode exits once presence is known, an install ends as `InstallResult` does (exit, or unhandled on a nonzero status), a confident removal ends as `UninstallResult` does, with the package `Uninstalled`; without confidence the run does not exit, and fails with the files attached once they are listed; a failure is recorded as `error`, and only a `check_rc` failure ends the run unhandled; the run is `Confined`; a confident removal that exits runs exactly, after the survey's two queries, `RemovalRun`; the filesystem is unchanged or exactly the sweep of the recorded manifest |
| PkgInstaller.Installer.RunModule | lib/ansible/modules/packaging/os/osx_pkg_installer.py:300-405 | from a fresh start, with the defaults `Defaults` gives: the whole run is `Confined`; the gates fail with nothing run; `originally_present` is what `Presence` gives and `changed` follows it; a converged package exits; the run `Ends` as `Settled` says: check mode exits once presence is known, an install ends as `InstallResult` does, a confident removal ends as `UninstallResult` does with the package `Uninstalled` (its manifest swept and gone); without confidence the run does not exit, and fails with the files attached once they are listed; a confident removal that exits runs exactly, after the survey's two queries, `RemovalRun`; the filesystem is unchanged or exactly the sweep of the recorded manifest; a failure is recorded as `error`, and only a `check_rc` failure ends the run unhandled; only the fields of the result and the verbose record the run sets change; the log only grows |

## Left out

- Real processes: `AnsibleModule.run_command` and the `pkgutil` and `installer` binaries are not part of this model. Their answers are the host's fixed script.
- The installer's effect on the filesystem: running `installer` changes nothing in the modelled filesystem.
- `AnsibleModule` itself: argument parsing, `exit_json` and `fail_json` (modelled as the `Outcome` value), the `_verbosity` merge of the verbose record into the result, and the documentation strings.
- `os.geteuid()` and `os.path.expanduser('~')` are the parameters `isRoot` and `home`. Check mode is the parameter `checkMode`.
- `datetime.utcnow().isoformat()` log keys become trace positions, so two commands in the same microsecond cannot collide. `install_datetime` (a local-time rendering) is not in the parsed record.
- Symbolic links: `realpath` is lexical resolution, and `isdir`, `isfile` and `exists` look a path up in the map.
- Errors from the operating system during `rmtree` or `remove` (permissions, races) are not modelled.
- Whitespace is ASCII only, for `strip()` and `int()`. `int()` does not accept underscores or non-ASCII digits here.
- The pattern in `parse_out` is modelled for the module's own keys, none of which holds a regular-expression metacharacter.
- `find_new_packages` returns a list whose order Python leaves open. `Transcript.NewPackages` fixes one order: first appearance in the new listing.
- PkgInstaller.Installer.Uninstall: when the listing fails it does not state the exact trace. It states the order of the commands and that the log only grows, not the exact log entries; `PackageFiles` and `Purge` state those.
- PkgInstaller.Installer.Reconcile: the listing snapshots, the receipt record and the log entries of the survey and of the action are not restated; `Survey`, `PackageFiles`, `Install` and `Purge` state them. For a run that installs it states that the installer command is among the commands run since the start, not that it is the last one; `Decide` and `Act` state the exact trace.
- PkgInstaller.Installer.Attempt: as for `Reconcile`, a run that installs is stated to include the installer command, not to end with it.
- PkgInstaller.Installer.Execute: as for `Reconcile`, a run that installs is stated to include the installer command, not to end with it.
- PkgInstaller.Installer.RunModule: the recorded defaults are not restated; `Configure` states them. As for `Reconcile`, a run that installs is stated to include the installer command, not to end with it.
- Transcript.ParsePkgInfoMeaning: an install time outside the range of `datetime.fromtimestamp` (line 191), such as `install-time: 300000000000`, raises in the code, and `run_module` reports that as a failed run. The model has no `install_datetime` and accepts every integer install time.
- Paths.Lookup: `.` and `..` are resolved lexically, even after a component that is missing or is a file, where `os.stat` fails. A path such as `missing/../x` is looked up as `x`.

=== FILE: errors.dfy ===
/** Failure-compatible wrappers and the error taxonomy of the package installer.

    The installer signals failure with Python exceptions; here every such exception is a
    value of `Error`, carried by `Result.Err`, so each error path is explicit. */
module Errors {

  datatype Option<+T> = None | Some(value: T)

  datatype Result<+T> = Ok(value: T) | Err(error: Error) {
    predicate IsFailure() {
      Err?
    }

    function PropagateFailure<U>(): Result<U>
      requires Err?
    {
      Err(error)
    }

    function Extract(): T
      requires Ok?
    {
      value
    }
  }

  /** One value per exception the installer can raise (or let escape). */
  datatype Error =
    /** `PkgException("Key not found in output.", key, std_out)` from `parse_out`. */
    | KeyNotFound(key: string, output: string)
    /** The `ValueError` that `int()` raises on a non-numeric install time. */
    | NotAnInteger(text: string)
    /** The `KeyError: 'root_dir'` raised when the files of an absent package are listed. */
    | RootDirMissing
    /** `PkgException('installer failed', rc, out, err)` from `list_all_packages`. */
    | ListingFailed(rc: int, out: string, err: string)
    /** `PkgException('pkg file not found at %s' % real_pkg_path)` from `install`. */
    | PkgFileNotFound(path: string)
    /** `PkgException('Not confident_to_remove this package', ...)`: the safety gate. */
    | NotConfident
    /** `PkgException("Missing pkg_path when state is present")`. */
    | MissingPkgPath
    /** `PkgException("Missing package_id when state is absent")`. */
    | MissingPackageId
    /** A command run with `check_rc=True` exited nonzero: the module fails from inside
        its command runner, before the caller sees the result. */
    | ProcessFailed(cmd: seq<string>, rc: int, out: string, err: string)
}

=== FILE: host.dfy ===
/** The machine the installer runs on, as far as the installer can observe or change it:
    the commands it runs (whose answers are scripted), the filesystem it inspects and
    prunes, and the trace of everything it did, in order. */
module HostModel {
  import opened Errors
  import opened Paths

  /** An argument vector, program first. */
  type Command = seq<string>

  /** What a finished command reports: exit status, standard output, standard error. */
  datatype Response = Response(rc: int, out: string, err: string)

  /** One observable action, in the order it happened. */
  datatype Event =
    | Ran(cmd: Command)
    | RemovedTree(path: string)
    | RemovedFile(path: string)

  const Pkgutil := "/usr/sbin/pkgutil"
  const InstallerTool := "/usr/sbin/installer"

  /** `pkgutil --pkg-info <id> --volume <volume>`: the receipt of one package. */
  function PkgInfoCommand(packageId: string, volume: string): Command {
    [Pkgutil, "--pkg-info", packageId, "--volume", volume]
  }

  /** `pkgutil --files <id> --volume <volume>`: the paths the receipt records. */
  function FilesCommand(packageId: string, volume: string): Command {
    [Pkgutil, "--files", packageId, "--volume", volume]
  }

  /** `pkgutil --forget <id> --volume <volume>`: drops the receipt. */
  function ForgetCommand(packageId: string, volume: string): Command {
    [Pkgutil, "--forget", packageId, "--volume", volume]
  }

  /** `pkgutil --pkgs --volume <volume>`: the ids of every installed package. */
  function ListCommand(volume: string): Command {
    [Pkgutil, "--pkgs", "--volume", volume]
  }

  /** `installer -pkg <pkg> -target <target>`. */
  function InstallCommand(pkgPath: string, target: string): Command {
    [InstallerTool, "-pkg", pkgPath, "-target", target]
  }

  class Host {
    /** The answer to the command run as the `n`-th event: the outside world, fixed in
        advance, so that every run of the installer against it is determined. */
    const respond: (nat, Command) -> Response
    /** The working directory relative paths are resolved against. */
    const cwd: string
    var fs: FileSystem
    var events: seq<Event>

    constructor (respond: (nat, Command) -> Response, cwd: string, fs: FileSystem)
      ensures this.respond == respond && this.cwd == cwd
      ensures this.fs == fs && events == []
    {
      this.respond := respond;
      this.cwd := cwd;
      this.fs := fs;
      events := [];
    }

    /** The module's command runner. With `checkRc` set, a nonzero exit status makes the
        module fail on the spot: the caller gets the failure, not the response. */
    method Run(cmd: Command, checkRc: bool) returns (r: Result<Response>)
      modifies this`events
      ensures events == old(events) + [Ran(cmd)]
      ensures var resp := respond(|old(events)|, cmd);
        r == if checkRc && resp.rc != 0 then Err(ProcessFailed(cmd, resp.rc, resp.out, resp.err))
             else Ok(resp)
    {
      var resp := respond(|events|, cmd);
      events := events + [Ran(cmd)];
      if checkRc && resp.rc != 0 {
        r := Err(ProcessFailed(cmd, resp.rc, resp.out, resp.err));
      } else {
        r := Ok(resp);
      }
    }

    /** What is at the path string `s` now (`os.path.isdir` / `os.path.isfile` /
        `os.path.exists`). */
    function Stat(s: string): Option<Kind>
      reads this`fs
    {
      Lookup(fs, cwd, s)
    }

    /** `shutil.rmtree(s)`. */
    method RemoveTree(s: string)
      modifies this`fs, this`events
      ensures fs == WithoutTree(old(fs), Resolve(cwd, s))
      ensures events == old(events) + [RemovedTree(s)]
    {
      fs := WithoutTree(fs, Resolve(cwd, s));
      events := events + [RemovedTree(s)];
    }

    /** `os.remove(s)`. */
    method RemoveFile(s: string)
      modifies this`fs, this`events
      ensures fs == WithoutEntry(old(fs), Resolve(cwd, s))
      ensures events == old(events) + [RemovedFile(s)]
    {
      fs := WithoutEntry(fs, Resolve(cwd, s));
      events := events + [RemovedFile(s)];
    }
  }
}

=== FILE: installation.dfy ===
/** The values the installer works with: what a receipt query says about a package, what
    a file listing yields, the defaults `run_module` fills in, its parameters and the ways a
    run can end. */
module Installation {
  import opened Errors
  import opened Text
  import opened Paths
  import opened Transcript
  import opened HostModel
  import opened Removal

  /** What `pkg_info` records about a package: its receipt, or that it has none. */
  datatype PkgState = NotInstalled | Installed(info: PkgRecord)

  /** One entry of the command log: what was run, whether a nonzero status was fatal, and
      what came back. */
  datatype CommandRecord = CommandRecord(commandList: Command, checkRc: bool, response: Response)

  /** What `pkg_info` makes of the answer to `pkgutil --pkg-info`: a package is installed
      exactly when the query succeeds and its receipt parses; a failed query means no
      receipt, whatever it printed; a receipt that does not parse is an error. */
  function Probe(resp: Response, cwd: string): (r: Result<PkgState>)
    ensures r == Ok(NotInstalled) <==> resp.rc != 0
    ensures r.Ok? && r.value.Installed? <==> resp.rc == 0 && ParsePkgInfo(resp.out, cwd).Ok?
    ensures r.Ok? && r.value.Installed? ==> r.value.info == ParsePkgInfo(resp.out, cwd).value
    ensures r.Err? ==> resp.rc == 0 && r.error == ParsePkgInfo(resp.out, cwd).error
  {
    if resp.rc == 0 then
      match ParsePkgInfo(resp.out, cwd)
      case Ok(info) => Ok(Installed(info))
      case Err(e) => Err(e)
    else Ok(NotInstalled)
  }

  /** What `package_files` returns, given what `pkg_info` made of the receipt and the
      answer to the `--files` listing: a receipt that does not parse fails first, then a
      failed listing (fatal), then a package with no receipt (its root directory is
      missing); otherwise the manifest of the listing under the receipt's root. */
  function FilesOutcome(info: Result<PkgState>, cmd: Command, listing: Response): (r: Result<seq<string>>)
    ensures info.Err? ==> r == Err(info.error)
    ensures info.Ok? && listing.rc != 0 ==> r == Err(ProcessFailed(cmd, listing.rc, listing.out, listing.err))
    ensures info == Ok(NotInstalled) && listing.rc == 0 ==> r == Err(RootDirMissing)
    ensures r.Ok? <==> info.Ok? && info.value.Installed? && listing.rc == 0
    ensures r.Ok? ==> r.value == Manifest(info.value.info.rootDir, Split(listing.out, '\n'))
  {
    if info.Err? then Err(info.error)
    else if listing.rc != 0 then Err(ProcessFailed(cmd, listing.rc, listing.out, listing.err))
    else if info.value.NotInstalled? then Err(RootDirMissing)
    else Ok(Manifest(info.value.info.rootDir, Split(listing.out, '\n')))
  }

  /** What `package_files` makes of the receipt query answered as the `n`-th event and of
      the file listing answered right after it. */
  function FilesAt(respond: (nat, Command) -> Response, cwd: string, packageId: string, volume: string,
                   n: nat): Result<seq<string>> {
    FilesOutcome(Probe(respond(n, PkgInfoCommand(packageId, volume)), cwd), FilesCommand(packageId, volume),
                 respond(n + 1, FilesCommand(packageId, volume)))
  }

  datatype Setup = Setup(volume: string, target: string, creates: string, message: string)

  /** `os.path.join(volume, 'Applications', '%s.app' % app_name)`. */
  function BundlePath(volume: string, appName: string): string {
    JoinPath(JoinPath(volume, "Applications"), appName + ".app")
  }

  /** The defaults `run_module` fills in: root works on the startup volume and installs onto
      `/`; anyone else works in their home directory and installs into it; unless a marker
      path is given, the app bundle stands for the package. */
  function Defaults(isRoot: bool, home: string, appName: string, target: Option<string>,
                    creates: Option<string>): (s: Setup)
    ensures s.volume == if isRoot then "/" else home
    ensures s.message == if isRoot then "Running as root" else "Running as unprivileged user"
    ensures target.Some? ==> s.target == target.value
    ensures target.None? ==> s.target == if isRoot then "/" else "CurrentUserHomeDirectory"
    ensures creates.Some? ==> s.creates == creates.value
    ensures creates.None? ==> s.creates == BundlePath(s.volume, appName)
  {
    var volume := if isRoot then "/" else home;
    Setup(
      volume,
      if target.Some? then target.value else if isRoot then "/" else "CurrentUserHomeDirectory",
      if creates.Some? then creates.value else BundlePath(volume, appName),
      if isRoot then "Running as root" else "Running as unprivileged user")
  }

  /** For root, the marker is `/Applications/<app_name>.app`. */
  lemma RootBundlePath(appName: string)
    requires !IsAbsolute(appName)
    ensures BundlePath("/", appName) == "/Applications/" + appName + ".app"
  {
    var bundle := appName + ".app";
    assert !IsAbsolute(bundle) by {
      if appName != [] { assert bundle[0] == appName[0]; } else { assert bundle == ".app"; }
    }
    assert JoinPath("/", "Applications") == "/Applications";
    assert !EndsWithSlash("/Applications");
    assert JoinPath("/Applications", bundle) == "/Applications" + "/" + bundle;
  }

  /** An absolute app name replaces the volume altogether: the marker is the name itself
      with `.app` appended. */
  lemma AbsoluteBundlePath(volume: string, appName: string)
    requires IsAbsolute(appName)
    ensures BundlePath(volume, appName) == appName + ".app"
  {
    assert (appName + ".app")[0] == appName[0];
  }

  /** The marker names the bundle `<app_name>.app` inside the `Applications` directory of
      the volume, for root and for anyone else alike. */
  lemma BundlePathBeneathVolume(cwd: string, volume: string, appName: string)
    requires IsComponent(appName + ".app")
    ensures Resolve(cwd, BundlePath(volume, appName)) == Resolve(cwd, volume) + ["Applications", appName + ".app"]
  {
    assert IsComponent("Applications");
    ResolveJoinComponent(cwd, volume, "Applications");
    ResolveJoinComponent(cwd, JoinPath(volume, "Applications"), appName + ".app");
  }

  /** How `run_module` ends: `exit_json`, `fail_json` with the error attached to the
      result, or a fatal command failure raised from inside the command runner, which the
      module's error handler never sees. */
  datatype Outcome = Exited | Failed(error: Error) | Terminated(error: Error)

  datatype State = Present | Absent

  /** The module's parameters. `pkg_path` defaults to the empty string, so it is missing
      only when it is given as null. */
  datatype Params = Params(
    appName: string,
    pkgPath: Option<string>,
    creates: Option<string>,
    state: State,
    target: Option<string>,
    packageId: Option<string>,
    confidentToRemove: bool)

  /** What the survey of `run_module` finds, with the package listing answered as the `n`-th
      event: nothing when a parameter check fails, the listing fails or the receipt does not
      parse; otherwise whether the package is present, told by its receipt when a package
      id is given and by the marker path otherwise. */
  function Presence(params: Params, setup: Setup, respond: (nat, Command) -> Response, cwd: string,
                    fs: FileSystem, n: nat): Option<bool> {
    if params.state == Present && params.pkgPath.None? then None
    else if params.state == Absent && params.packageId.None? then None
    else if respond(n, ListCommand(setup.volume)).rc != 0 then None
    else Detected(params.packageId, setup, respond, cwd, fs, n + 1)
  }

  /** What `is_present` finds, its receipt query answered as the `n`-th event: whether
      the package is present, told by its receipt when a package id is given and by the
      marker path otherwise; nothing when the receipt does not parse. */
  function Detected(packageId: Option<string>, setup: Setup, respond: (nat, Command) -> Response, cwd: string,
                    fs: FileSystem, n: nat): Option<bool> {
    if packageId.None? then Some(Lookup(fs, cwd, setup.creates).Some?)
    else
      var probe := Probe(respond(n, PkgInfoCommand(packageId.value, setup.volume)), cwd);
      if probe.Ok? then Some(probe.value.Installed?) else None
  }

  /** What a command run with `check_rc` set gives its caller: nothing on a zero exit
      status, the fatal failure otherwise. */
  function Checked(cmd: Command, resp: Response): Result<()> {
    if resp.rc == 0 then Ok(()) else Err(ProcessFailed(cmd, resp.rc, resp.out, resp.err))
  }

  /** What the command `cmd`, run with `check_rc` set as the `n`-th event, gives its caller. */
  function CheckedAt(respond: (nat, Command) -> Response, n: nat, cmd: Command): Result<()> {
    Checked(cmd, respond(n, cmd))
  }

  /** What `install` gives when it starts as the `n`-th event on filesystem `fs`: the
      refusal of a package path that is not a regular file, otherwise the installer's
      run. */
  function InstallResult(respond: (nat, Command) -> Response, cwd: string, fs: FileSystem,
                         pkgPath: string, target: string, n: nat): Result<()> {
    var resolved := Realpath(cwd, pkgPath);
    if Lookup(fs, cwd, resolved) != Some(File) then Err(PkgFileNotFound(resolved))
    else CheckedAt(respond, n, InstallCommand(pkgPath, target))
  }

  /** What `uninstall` gives when it starts as the `n`-th event on filesystem `fs`: the
      failure of its file listing, otherwise, after the listing's two queries and one
      removal per path still there, the run of `--forget`. */
  function UninstallResult(respond: (nat, Command) -> Response, cwd: string, fs: FileSystem,
                           packageId: string, volume: string, n: nat): Result<()> {
    var listed := FilesAt(respond, cwd, packageId, volume, n);
    if listed.Err? then Err(listed.error) else ForgetAt(respond, cwd, fs, packageId, volume, n + 2, listed.value)
  }

  /** What `--forget` gives when the removals of the listed `manifest` from `fs` start as
      the `n`-th event: it runs right after the last of them, one per listed path still
      there. */
  function ForgetAt(respond: (nat, Command) -> Response, cwd: string, fs: FileSystem,
                    packageId: string, volume: string, n: nat, manifest: seq<string>): Result<()> {
    CheckedAt(respond, n + |SweepEvents(fs, cwd, manifest)|, ForgetCommand(packageId, volume))
  }

  /** Once the listing succeeds, what `uninstall` gives is the run of `--forget`. */
  lemma ForgetIsUninstallResult(respond: (nat, Command) -> Response, cwd: string, fs: FileSystem,
                                packageId: string, volume: string, n: nat, manifest: seq<string>)
    requires FilesAt(respond, cwd, packageId, volume, n) == Ok(manifest)
    ensures UninstallResult(respond, cwd, fs, packageId, volume, n) == ForgetAt(respond, cwd, fs, packageId, volume, n + 2, manifest)
  {
  }

  /** What `uninstall`, started as the `n`-th event, leaves of the filesystem `fsBefore`:
      nothing changed when its listing fails; otherwise the listed `manifest` recorded and
      swept, whether or not `--forget` then succeeds. */
  ghost predicate Uninstalled(respond: (nat, Command) -> Response, cwd: string, packageId: string, volume: string,
                              n: nat, fsBefore: FileSystem, fsAfter: FileSystem, manifest: Option<seq<string>>) {
    var listed := FilesAt(respond, cwd, packageId, volume, n);
    if listed.Err? then fsAfter == fsBefore
    else manifest == Some(listed.value) && fsAfter == SweepFs(fsBefore, cwd, listed.value)
  }

  /** After `uninstall` has swept, none of the listed paths is found any more. */
  lemma UninstalledGone(respond: (nat, Command) -> Response, cwd: string, packageId: string, volume: string,
                        n: nat, fsBefore: FileSystem, fsAfter: FileSystem, manifest: Option<seq<string>>)
    requires Uninstalled(respond, cwd, packageId, volume, n, fsBefore, fsAfter, manifest)
    requires FilesAt(respond, cwd, packageId, volume, n).Ok?
    ensures manifest.Some? && forall f | f in manifest.value :: Lookup(fsAfter, cwd, f) == None
  {
    SweepGone(fsBefore, cwd, manifest.value);
  }

  /** How many commands the survey of `run_module` runs once its package listing
      succeeds: the listing, and the receipt query when a package id is given. */
  function SurveyEvents(packageId: Option<string>): nat {
    if packageId.Some? then 2 else 1
  }

  /** A step's result with the message for the run in place of its unit value. */
  function WithMessage(u: Result<()>, message: string): Result<string> {
    if u.Ok? then Ok(message) else Err(u.error)
  }

  /** How `run_module` ends when its guarded part gives `r`: `exit_json` on success, the
      fatal failure of a command run with `check_rc` unhandled, and any other error
      through `fail_json`. */
  function Ending<T>(r: Result<T>): Outcome {
    if r.Ok? then Exited
    else if r.error.ProcessFailed? then Terminated(r.error)
    else Failed(r.error)
  }

  /** `'%s' % x` for an optional string: the missing value renders as `None`. */
  function Show(x: Option<string>): string {
    if x.Some? then x.value else "None"
  }

  /** The message for the run: `Checking for <app> for pkg at <path>` in check mode,
      `Running for ...` otherwise. */
  function RunMessage(checkMode: bool, appName: string, pkgPath: Option<string>): string {
    (if checkMode then "Checking for " else "Running for ") + appName + " for pkg at " + Show(pkgPath)
  }
}

=== FILE: installer.dfy ===
/** The installer itself. Its two dictionaries, the result it reports and the verbose
    record, are fields of the `Installer` object, one per key (`None` while the key is not
    set); the helpers that run `pkgutil` and `installer` fill them in as they go, and
    `RunModule` decides whether to install, to do nothing, or to remove. */
module PkgInstaller {
  import opened Errors
  import opened Text
  import opened Paths
  import opened Transcript
  import opened HostModel
  import opened Removal
  import opened Trace
  import opened Installation

  function Entries(log: Option<map<nat, CommandRecord>>): map<nat, CommandRecord> {
    if log.Some? then log.value else map[]
  }

  function Snapshots(snapshots: Option<map<nat, seq<string>>>): map<nat, seq<string>> {
    if snapshots.Some? then snapshots.value else map[]
  }

  /** The command log after `package_files` queried the receipt at trace position `n`: the
      query's entry, then the file listing's when the receipt was found and the listing
      succeeded. */
  function FilesLog(log: Option<map<nat, CommandRecord>>, respond: (nat, Command) -> Response, cwd: string,
                    packageId: string, volume: string, n: nat): map<nat, CommandRecord>
  {
    var query := respond(n, PkgInfoCommand(packageId, volume));
    var listing := respond(n + 1, FilesCommand(packageId, volume));
    var logged := Entries(log)[n := CommandRecord(PkgInfoCommand(packageId, volume), false, query)];
    if Probe(query, cwd).Ok? && listing.rc == 0
    then logged[n + 1 := CommandRecord(FilesCommand(packageId, volume), true, listing)]
    else logged
  }

  /** The command log only grows: once it exists it stays, every entry in it stays as it
      was, and every entry added is keyed at trace position `from` or later. */
  ghost predicate LogGrows(before: Option<map<nat, CommandRecord>>, after: Option<map<nat, CommandRecord>>, from: nat) {
    && (before.Some? ==> after.Some?)
    && (forall k | k in Entries(before) :: k in Entries(after) && Entries(after)[k] == Entries(before)[k])
    && (forall k | k in Entries(after) && k < from :: k in Entries(before))
  }

  /** Growth of the log in two stretches is growth of the log. */
  lemma LogGrowsTransitive(a: Option<map<nat, CommandRecord>>, b: Option<map<nat, CommandRecord>>,
                           c: Option<map<nat, CommandRecord>>, n: nat, m: nat)
    requires LogGrows(a, b, n) && LogGrows(b, c, m) && n <= m
    ensures LogGrows(a, c, n)
  {
  }

  /** What a run of the module may do to the machine, between the trace and filesystem
      `before` and `after` it: it only appends to the trace; in check mode, and for a
      package already in the desired state, it only queries `pkgutil`; it runs the
      installer only for a package that should be present and was not; and it removes
      files or receipts only for a package that should be absent, was present, and was
      confidently removed. */
  ghost predicate Confined(params: Params, checkMode: bool, originallyPresent: Option<bool>,
                           before: seq<Event>, after: seq<Event>, fsBefore: FileSystem, fsAfter: FileSystem)
  {
    && Extends(before, after)
    && (checkMode || originallyPresent == Some(params.state == Present) ==>
          OnlyProbes(after, |before|) && fsAfter == fsBefore)
    && (!NoInstall(after, |before|) ==>
          !checkMode && params.state == Present && originallyPresent == Some(false))
    && (!(fsAfter == fsBefore && NoRemoval(after, |before|)) ==>
          !checkMode && params.state == Absent && originallyPresent == Some(true) && params.confidentToRemove)
  }

  /** A stretch of queries followed by a confined stretch is confined as a whole. */
  lemma ConfinedAfterProbes(params: Params, checkMode: bool, originallyPresent: Option<bool>,
                            e0: seq<Event>, e1: seq<Event>, e2: seq<Event>, fsBefore: FileSystem, fsAfter: FileSystem)
    requires Extends(e0, e1) && OnlyProbes(e1, |e0|)
    requires Confined(params, checkMode, originallyPresent, e1, e2, fsBefore, fsAfter)
    ensures Confined(params, checkMode, originallyPresent, e0, e2, fsBefore, fsAfter)
  {
    ProbesAreHarmless(e1, |e0|);
    Chain(e1, e2, |e0|);
    ExtendsTransitive(e0, e1, e2);
  }

  /** What the run whose survey started as the `n`-th event on `fsBefore` settles about
      its result `r` and the filesystem `fsAfter` it leaves: in check mode, only the
      message; a package that should be present and was not gets what `install` gives; a
      package that should be absent, was present and is confidently removed gets what the
      `uninstall` after its first listing gives, with its sweep. */
  ghost predicate Settled(params: Params, checkMode: bool, setup: Setup, respond: (nat, Command) -> Response,
                          cwd: string, n: nat, originallyPresent: Option<bool>, fsBefore: FileSystem,
                          fsAfter: FileSystem, verboseFiles: Option<seq<string>>, r: Result<string>)
  {
    && (checkMode && originallyPresent.Some? ==> r == Ok(RunMessage(true, params.appName, params.pkgPath)))
    && (!checkMode && params.state == Present && params.pkgPath.Some? && originallyPresent == Some(false) ==>
          r == WithMessage(InstallResult(respond, cwd, fsBefore, params.pkgPath.value, setup.target,
                                         n + SurveyEvents(params.packageId)),
                           RunMessage(false, params.appName, params.pkgPath)))
    && (!checkMode && params.state == Absent && params.packageId.Some? && originallyPresent == Some(true)
        && params.confidentToRemove && FilesAt(respond, cwd, params.packageId.value, setup.volume, n + 2).Ok? ==>
          && r == WithMessage(UninstallResult(respond, cwd, fsBefore, params.packageId.value, setup.volume, n + 4),
                              RunMessage(false, params.appName, params.pkgPath))
          && Uninstalled(respond, cwd, params.packageId.value, setup.volume, n + 4, fsBefore, fsAfter, verboseFiles))
  }

  /** `Settled` for how the run ends rather than for what its guarded part gives. */
  ghost predicate Ends(params: Params, checkMode: bool, setup: Setup, respond: (nat, Command) -> Response,
                       cwd: string, n: nat, originallyPresent: Option<bool>, fsBefore: FileSystem,
                       fsAfter: FileSystem, verboseFiles: Option<seq<string>>, outcome: Outcome)
  {
    && (checkMode && originallyPresent.Some? ==> outcome == Exited)
    && (!checkMode && params.state == Present && params.pkgPath.Some? && originallyPresent == Some(false) ==>
          outcome == Ending(InstallResult(respond, cwd, fsBefore, params.pkgPath.value, setup.target,
                                          n + SurveyEvents(params.packageId))))
    && (!checkMode && params.state == Absent && params.packageId.Some? && originallyPresent == Some(true)
        && params.confidentToRemove && FilesAt(respond, cwd, params.packageId.value, setup.volume, n + 2).Ok? ==>
          && outcome == Ending(UninstallResult(respond, cwd, fsBefore, params.packageId.value, setup.volume, n + 4))
          && Uninstalled(respond, cwd, params.packageId.value, setup.volume, n + 4, fsBefore, fsAfter, verboseFiles))
  }

  /** The message plays no part in how a run ends: a settled result ends the run as the
      install or the uninstall it came from would. */
  lemma SettledEnds(params: Params, checkMode: bool, setup: Setup, respond: (nat, Command) -> Response,
                    cwd: string, n: nat, originallyPresent: Option<bool>, fsBefore: FileSystem,
                    fsAfter: FileSystem, verboseFiles: Option<seq<string>>, r: Result<string>)
    requires Settled(params, checkMode, setup, respond, cwd, n, originallyPresent, fsBefore, fsAfter, verboseFiles, r)
    ensures Ends(params, checkMode, setup, respond, cwd, n, originallyPresent, fsBefore, fsAfter, verboseFiles, Ending(r))
  {
    forall u: Result<()>, m: string
      ensures Ending(WithMessage(u, m)) == Ending(u)
    {
    }
  }

  class Installer {
    const host: Host

    // The reported result.
    var changed: bool
    var message: string
    var pkgInfo: Option<PkgState>
    var pkgFiles: Option<seq<string>>
    var forget: Option<Response>
    /** The package listings taken, keyed by the position of the listing in the trace. */
    var installedPackages: Option<map<nat, seq<string>>>
    var newPackages: Option<seq<string>>
    /** The files of a package that was not removed for want of confidence. */
    var files: Option<seq<string>>
    var error: Option<Error>

    // The verbose record.
    var shouldBePresent: Option<bool>
    var creates: Option<string>
    var target: Option<string>
    var volume: Option<string>
    /** The command log, keyed by the position of the command in the trace. */
    var commands: Option<map<nat, CommandRecord>>
    var allPackages: Option<Response>
    var originalPackageList: Option<seq<string>>
    var originallyPresent: Option<bool>
    var verboseFiles: Option<seq<string>>
    var removal: Option<seq<string>>
    var messages: Option<string>

    /** Every log entry and every listing is keyed by a position already in the trace, and
        each log entry records the command run at that position. */
    ghost predicate Valid()
      reads this`commands, this`installedPackages, host`events
    {
      (forall k | k in Entries(commands) ::
         k < |host.events| && host.events[k] == Ran(Entries(commands)[k].commandList))
      && (forall k | k in Snapshots(installedPackages) :: k < |host.events|)
    }

    /** The keys stay valid as the trace grows. */
    lemma Keyed(commands: Option<map<nat, CommandRecord>>, installedPackages: Option<map<nat, seq<string>>>,
                before: seq<Event>, after: seq<Event>)
      requires Extends(before, after)
      requires forall k | k in Entries(commands) :: k < |before| && before[k] == Ran(Entries(commands)[k].commandList)
      requires forall k | k in Snapshots(installedPackages) :: k < |before|
      ensures forall k | k in Entries(commands) :: k < |after| && after[k] == Ran(Entries(commands)[k].commandList)
      ensures forall k | k in Snapshots(installedPackages) :: k < |after|
    {
      assert forall k | 0 <= k < |before| :: after[k] == after[..|before|][k];
    }

    /** Both dictionaries as a run of the module starts them. */
    ghost predicate Fresh()
      reads this
    {
      !changed && message == "" && pkgInfo.None? && pkgFiles.None? && forget.None?
      && installedPackages.None? && newPackages.None? && files.None? && error.None?
      && shouldBePresent.None? && creates.None? && target.None? && volume.None?
      && commands.None? && allPackages.None? && originalPackageList.None?
      && originallyPresent.None? && verboseFiles.None? && removal.None? && messages.None?
    }

    /** An installer about to run the module: the result holds only `changed=False` and
        an empty message, the verbose record nothing. */
    constructor (host: Host)
      ensures this.host == host
      ensures Fresh() && Valid()
    {
      this.host := host;
      changed, message, pkgInfo, pkgFiles, forget := false, "", None, None, None;
      installedPackages, newPackages, files, error := None, None, None, None;
      shouldBePresent, creates, target, volume := None, None, None, None;
      commands, allPackages, originalPackageList := None, None, None;
      originallyPresent, verboseFiles, removal, messages := None, None, None, None;
    }

    /** `run_command`: runs the command and adds one entry to the log, under a key no other
        entry has. A fatal failure ends the module inside the runner, so nothing is logged. */
    method RunCommand(commandList: Command, checkRc: bool) returns (r: Result<Response>)
      requires Valid()
      modifies this`commands, host`events
      ensures Valid()
      ensures host.events == old(host.events) + [Ran(commandList)]
      ensures var resp := host.respond(|old(host.events)|, commandList);
        if checkRc && resp.rc != 0 then
          r == Err(ProcessFailed(commandList, resp.rc, resp.out, resp.err)) && commands == old(commands)
        else
          r == Ok(resp)
          && |old(host.events)| !in Entries(old(commands))
          && commands == Some(Entries(old(commands))[|old(host.events)| := CommandRecord(commandList, checkRc, resp)])
    {
      var key := |host.events|;
      var ran := host.Run(commandList, checkRc);
      if ran.Ok? {
        commands := Some(Entries(commands)[key := CommandRecord(commandList, checkRc, ran.value)]);
      }
      r := ran;
    }

    /** `pkg_info`: asks `pkgutil` for the receipt (a failed query is not fatal) and records
        what `Probe` makes of the answer; a receipt that does not parse records nothing. */
    method PkgInfo(packageId: string, volume: string) returns (r: Result<PkgState>)
      requires Valid()
      modifies this`commands, this`pkgInfo, host`events
      ensures Valid()
      ensures host.events == old(host.events) + [Ran(PkgInfoCommand(packageId, volume))]
      ensures var resp := host.respond(|old(host.events)|, PkgInfoCommand(packageId, volume));
        r == Probe(resp, host.cwd)
        && commands == Some(Entries(old(commands))[|old(host.events)| := CommandRecord(PkgInfoCommand(packageId, volume), false, resp)])
        && pkgInfo == if r.Ok? then Some(r.value) else old(pkgInfo)
    {
      var ran := RunCommand(PkgInfoCommand(packageId, volume), false);
      r := Probe(ran.value, host.cwd);
      if r.Ok? {
        pkgInfo := Some(r.value);
      }
    }

    /** The second half of `package_files`: lists the files of a package whose receipt
        query said `state`, and reads the listing under the receipt's root directory. */
    method ListFiles(state: PkgState, packageId: string, volume: string) returns (r: Result<seq<string>>)
      requires Valid()
      modifies this`commands, this`pkgFiles, host`events
      ensures Valid()
      ensures host.events == old(host.events) + [Ran(FilesCommand(packageId, volume))]
      ensures var listing := host.respond(|old(host.events)|, FilesCommand(packageId, volume));
        r == FilesOutcome(Ok(state), FilesCommand(packageId, volume), listing)
        && pkgFiles == (if r.Ok? then Some(r.value) else old(pkgFiles))
        && commands == if listing.rc != 0 then old(commands)
                       else Some(Entries(old(commands))[|old(host.events)| := CommandRecord(FilesCommand(packageId, volume), true, listing)])
      ensures LogGrows(old(commands), commands, |old(host.events)|)
    {
      var listing :- RunCommand(FilesCommand(packageId, volume), true);
      if state.NotInstalled? {
        return Err(RootDirMissing);
      }
      var manifest := ParsePackageFiles(state.info.rootDir, listing.out);
      pkgFiles := Some(manifest);
      r := Ok(manifest);
    }

    /** `package_files`: reads the receipt, then lists its files (a failed listing is
        fatal), and only then needs the root directory, which a package with no receipt
        does not have. `FilesOutcome` says which failure wins. */
    method PackageFiles(packageId: string, volume: string) returns (r: Result<seq<string>>)
      requires Valid()
      modifies this`commands, this`pkgInfo, this`pkgFiles, host`events
      ensures Valid()
      ensures var n := |old(host.events)|;
        var info := Probe(host.respond(n, PkgInfoCommand(packageId, volume)), host.cwd);
        var listing := host.respond(n + 1, FilesCommand(packageId, volume));
        r == FilesOutcome(info, FilesCommand(packageId, volume), listing)
        && host.events == old(host.events) + [Ran(PkgInfoCommand(packageId, volume))]
                          + (if info.Ok? then [Ran(FilesCommand(packageId, volume))] else [])
        && pkgInfo == (if info.Ok? then Some(info.value) else old(pkgInfo))
        && pkgFiles == (if r.Ok? then Some(r.value) else old(pkgFiles))
      ensures commands == Some(FilesLog(old(commands), host.respond, host.cwd, packageId, volume, |old(host.events)|))
      ensures LogGrows(old(commands), commands, |old(host.events)|)
      ensures Extends(old(host.events), host.events) && OnlyProbes(host.events, |old(host.events)|)
    {
      CommandKinds(packageId, volume, "", "");
      Append(host.events, [Ran(PkgInfoCommand(packageId, volume)), Ran(FilesCommand(packageId, volume))]);
      Append(host.events, [Ran(PkgInfoCommand(packageId, volume))]);
      var info := PkgInfo(packageId, volume);
      if info.Err? {
        return Err(info.error);
      }
      assert [Ran(PkgInfoCommand(packageId, volume)), Ran(FilesCommand(packageId, volume))]
             == [Ran(PkgInfoCommand(packageId, volume))] + [Ran(FilesCommand(packageId, volume))];
      r := ListFiles(info.value, packageId, volume);
    }

    /** `forget_package`: drops the receipt (a failure is fatal) and records the answer. */
    method ForgetPackage(packageId: string, volume: string) returns (r: Result<Response>)
      requires Valid()
      modifies this`commands, this`forget, host`events
      ensures Valid()
      ensures host.events == old(host.events) + [Ran(ForgetCommand(packageId, volume))]
      ensures var resp := host.respond(|old(host.events)|, ForgetCommand(packageId, volume));
        if resp.rc != 0 then
          r == Err(ProcessFailed(ForgetCommand(packageId, volume), resp.rc, resp.out, resp.err))
          && forget == old(forget) && commands == old(commands)
        else
          r == Ok(resp) && forget == Some(resp)
          && commands == Some(Entries(old(commands))[|old(host.events)| := CommandRecord(ForgetCommand(packageId, volume), true, resp)])
      ensures LogGrows(old(commands), commands, |old(host.events)|)
    {
      var resp :- RunCommand(ForgetCommand(packageId, volume), true);
      forget := Some(resp);
      r := Ok(resp);
    }

    /** `is_present`: with a package id, whether `pkgutil` holds a receipt for it (the marker
        path plays no part); without one, whether the marker path exists, with no command
        run. */
    method IsPresent(creates: string, packageId: Option<string>, volume: string) returns (r: Result<bool>)
      requires Valid()
      modifies this`commands, this`pkgInfo, host`events
      ensures Valid()
      ensures packageId.None? ==>
        r == Ok(host.Stat(creates).Some?) && host.events == old(host.events)
        && commands == old(commands) && pkgInfo == old(pkgInfo)
      ensures packageId.Some? ==>
        var probe := Probe(host.respond(|old(host.events)|, PkgInfoCommand(packageId.value, volume)), host.cwd);
        host.events == old(host.events) + [Ran(PkgInfoCommand(packageId.value, volume))]
        && r == (if probe.Ok? then Ok(probe.value.Installed?) else Err(probe.error))
        && pkgInfo == (if probe.Ok? then Some(probe.value) else old(pkgInfo))
      ensures packageId.Some? ==>
        var resp := host.respond(|old(host.events)|, PkgInfoCommand(packageId.value, volume));
        commands == Some(Entries(old(commands))[|old(host.events)| := CommandRecord(PkgInfoCommand(packageId.value, volume), false, resp)])
      ensures LogGrows(old(commands), commands, |old(host.events)|)
      ensures Extends(old(host.events), host.events) && OnlyProbes(host.events, |old(host.events)|)
    {
      if packageId.Some? {
        CommandKinds(packageId.value, volume, "", "");
        Append(host.events, [Ran(PkgInfoCommand(packageId.value, volume))]);
        var info :- PkgInfo(packageId.value, volume);
        r := Ok(info.Installed?);
      } else {
        r := Ok(host.Stat(creates).Some?);
      }
    }

    /** `install`: refuses a package path that does not resolve to a regular file, without
        running anything; otherwise runs the installer, whose failure is fatal. */
    method Install(pkgPath: string, target: string) returns (r: Result<()>)
      requires Valid()
      modifies this`commands, host`events
      ensures Valid()
      ensures var resolved := Realpath(host.cwd, pkgPath);
        if host.Stat(resolved) != Some(File) then
          r == Err(PkgFileNotFound(resolved)) && host.events == old(host.events)
        else
          var resp := host.respond(|old(host.events)|, InstallCommand(pkgPath, target));
          host.events == old(host.events) + [Ran(InstallCommand(pkgPath, target))]
          && (resp.rc != 0 ==>
                r == Err(ProcessFailed(InstallCommand(pkgPath, target), resp.rc, resp.out, resp.err))
                && commands == old(commands))
          && (resp.rc == 0 ==>
                r == Ok(())
                && commands == Some(Entries(old(commands))[|old(host.events)| := CommandRecord(InstallCommand(pkgPath, target), true, resp)]))
      ensures r == InstallResult(host.respond, host.cwd, host.fs, pkgPath, target, |old(host.events)|)
      ensures LogGrows(old(commands), commands, |old(host.events)|)
    {
      var resolved := Realpath(host.cwd, pkgPath);
      if host.Stat(resolved) != Some(File) {
        return Err(PkgFileNotFound(resolved));
      }
      var ran :- RunCommand(InstallCommand(pkgPath, target), true);
      r := Ok(());
    }

    /** One turn of the removal loop of `uninstall`: a directory at `filePath` is removed
        with everything beneath it, a file is removed, and a line is recorded for either;
        when nothing is there, nothing happens. */
    method RemoveIfPresent(filePath: string)
      requires removal.Some?
      modifies this`removal, host`fs, host`events
      ensures host.fs == AfterVisit(old(host.fs), host.cwd, filePath)
      ensures host.events == old(host.events) + VisitEvents(old(host.fs), host.cwd, filePath)
      ensures removal == Some(old(removal.value) + RemovalLog(VisitEvents(old(host.fs), host.cwd, filePath)))
    {
      if host.Stat(filePath) == Some(Dir) {
        removal := Some(removal.value + ["Removing directory: " + filePath]);
        host.RemoveTree(filePath);
        assert RemovalLog([RemovedTree(filePath)]) == ["Removing directory: " + filePath];
      } else if host.Stat(filePath) == Some(File) {
        removal := Some(removal.value + ["Removing file: " + filePath]);
        host.RemoveFile(filePath);
        assert RemovalLog([RemovedFile(filePath)]) == ["Removing file: " + filePath];
      } else {
        assert old(removal.value) + [] == old(removal.value);
      }
    }

    /** The removal loop of `uninstall`: from an empty removal record, visits each listed
        path in order, adding to the record as it goes. */
    method VisitAll(manifest: seq<string>)
      requires removal == Some([])
      modifies this`removal, host`fs, host`events
      ensures host.fs == SweepFs(old(host.fs), host.cwd, manifest)
      ensures host.events == old(host.events) + SweepEvents(old(host.fs), host.cwd, manifest)
      ensures removal == Some(RemovalLog(SweepEvents(old(host.fs), host.cwd, manifest)))
    {
      ghost var fs0 := host.fs;
      ghost var events0 := host.events;
      assert manifest[..0] == [];
      for i := 0 to |manifest|
        invariant host.fs == SweepFs(fs0, host.cwd, manifest[..i])
        invariant host.events == events0 + SweepEvents(fs0, host.cwd, manifest[..i])
        invariant removal == Some(RemovalLog(SweepEvents(fs0, host.cwd, manifest[..i])))
      {
        ghost var log := SweepEvents(fs0, host.cwd, manifest[..i]);
        ghost var visit := VisitEvents(host.fs, host.cwd, manifest[i]);
        SweepStep(fs0, host.cwd, manifest, i);
        RemovalLogConcat(log, visit);
        RemoveIfPresent(manifest[i]);
      }
      assert manifest[..|manifest|] == manifest;
    }

    /** The removal part of `uninstall`: starts an empty removal record, then visits each
        listed path in order (`VisitAll`). */
    method RemoveFiles(manifest: seq<string>)
      requires Valid()
      modifies this`removal, host`fs, host`events
      ensures Valid()
      ensures host.fs == SweepFs(old(host.fs), host.cwd, manifest)
      ensures host.events == old(host.events) + SweepEvents(old(host.fs), host.cwd, manifest)
      ensures removal == Some(RemovalLog(SweepEvents(old(host.fs), host.cwd, manifest)))
      ensures forall f | f in manifest :: host.Stat(f) == None
    {
      ghost var fs0 := host.fs;
      ghost var events0 := host.events;
      ghost var log0, snapshots0 := commands, installedPackages;
      removal := Some([]);
      VisitAll(manifest);
      assert commands == log0 && installedPackages == snapshots0;
      SweepGone(fs0, host.cwd, manifest);
      Append(events0, SweepEvents(fs0, host.cwd, manifest));
      Keyed(log0, snapshots0, events0, host.events);
    }

    /** The middle of `uninstall`: records the listed files as `files`, then removes each
        one still present. Nothing the sweep does installs anything. */
    method Sweep(manifest: seq<string>)
      requires Valid()
      modifies this`verboseFiles, this`removal, host`events, host`fs
      ensures Valid()
      ensures verboseFiles == Some(manifest)
      ensures host.fs == SweepFs(old(host.fs), host.cwd, manifest)
      ensures host.events == old(host.events) + SweepEvents(old(host.fs), host.cwd, manifest)
      ensures removal == Some(RemovalLog(SweepEvents(old(host.fs), host.cwd, manifest)))
      ensures NoInstall(SweepEvents(old(host.fs), host.cwd, manifest), 0)
      ensures forall f | f in manifest :: host.Stat(f) == None
    {
      verboseFiles := Some(manifest);
      RemoveFiles(manifest);
      SweepKinds(old(host.fs), host.cwd, manifest);
    }

    /** The rest of `uninstall` once the manifest is known: records it, removes what is
        still there, then drops the receipt. The removals happen whether or not dropping
        the receipt then succeeds. */
    method Purge(manifest: seq<string>, packageId: string, volume: string) returns (r: Result<()>)
      requires Valid()
      modifies this`commands, this`verboseFiles, this`removal, this`forget, host`events, host`fs
      ensures Valid()
      ensures verboseFiles == Some(manifest)
      ensures host.fs == SweepFs(old(host.fs), host.cwd, manifest)
      ensures host.events == old(host.events) + SweepEvents(old(host.fs), host.cwd, manifest)
                             + [Ran(ForgetCommand(packageId, volume))]
      ensures removal == Some(RemovalLog(SweepEvents(old(host.fs), host.cwd, manifest)))
      ensures r == ForgetAt(host.respond, host.cwd, old(host.fs), packageId, volume, |old(host.events)|, manifest)
      ensures var key := |old(host.events)| + |SweepEvents(old(host.fs), host.cwd, manifest)|;
        var resp := host.respond(key, ForgetCommand(packageId, volume));
        (r.Ok? ==>
              forget == Some(resp)
              && commands == Some(Entries(old(commands))[key := CommandRecord(ForgetCommand(packageId, volume), true, resp)]))
      ensures LogGrows(old(commands), commands, |old(host.events)|)
      ensures Extends(old(host.events), host.events) && NoInstall(host.events, |old(host.events)|)
      ensures forall f | f in manifest :: host.Stat(f) == None
    {
      ghost var e0 := host.events;
      ghost var fs0 := host.fs;
      Sweep(manifest);
      ghost var sweep := SweepEvents(fs0, host.cwd, manifest);
      UninstallTrace(e0, sweep, packageId, volume);
      assert |host.events| == |e0| + |sweep|;
      ghost var key := |host.events|;
      var forgotten := ForgetPackage(packageId, volume);
      r := if forgotten.Ok? then Ok(()) else Err(forgotten.error);
      assert r == CheckedAt(host.respond, key, ForgetCommand(packageId, volume));
    }

    /** `uninstall`: lists the package's files, removes each one still present (a directory
        with everything beneath it), records a line per removal, then drops the receipt.
        Afterwards none of the listed paths exists; entries that no listed path covers are
        as they were (`Removal.SweepSpares`). */
    method Uninstall(packageId: string, volume: string) returns (r: Result<()>)
      requires Valid()
      modifies this`commands, this`pkgInfo, this`pkgFiles, this`verboseFiles, this`removal, this`forget
      modifies host`events, host`fs
      ensures Valid()
      ensures Extends(old(host.events), host.events) && NoInstall(host.events, |old(host.events)|)
      ensures host.fs == old(host.fs)
              || (verboseFiles.Some? && host.fs == SweepFs(old(host.fs), host.cwd, verboseFiles.value))
      ensures LogGrows(old(commands), commands, |old(host.events)|)
      ensures r == UninstallResult(host.respond, host.cwd, old(host.fs), packageId, volume, |old(host.events)|)
      ensures Uninstalled(host.respond, host.cwd, packageId, volume, |old(host.events)|, old(host.fs), host.fs, verboseFiles)
      ensures var listed := FilesAt(host.respond, host.cwd, packageId, volume, |old(host.events)|);
        listed.Ok? ==>
          && verboseFiles == Some(listed.value) && pkgFiles == verboseFiles
          && removal == Some(RemovalLog(SweepEvents(old(host.fs), host.cwd, listed.value)))
          && (r.Ok? ==> forget.Some?)
          && (forall f | f in listed.value :: host.Stat(f) == None)
      ensures r.Ok? ==> FilesAt(host.respond, host.cwd, packageId, volume, |old(host.events)|).Ok?
      ensures var listed := FilesAt(host.respond, host.cwd, packageId, volume, |old(host.events)|);
        listed.Ok? ==>
          host.events == old(host.events) + [Ran(PkgInfoCommand(packageId, volume))] + [Ran(FilesCommand(packageId, volume))]
                         + SweepEvents(old(host.fs), host.cwd, listed.value) + [Ran(ForgetCommand(packageId, volume))]
    {
      ghost var e0, fs0 := host.events, host.fs;
      var listed := PackageFiles(packageId, volume);
      ProbesAreHarmless(host.events, |e0|);
      assert listed == FilesAt(host.respond, host.cwd, packageId, volume, |e0|) && host.fs == fs0;
      if listed.Err? {
        return Err(listed.error);
      }
      ghost var e1 := host.events;
      assert e1 == e0 + [Ran(PkgInfoCommand(packageId, volume))] + [Ran(FilesCommand(packageId, volume))];
      assert |e1| == |e0| + 2;
      r := Purge(listed.value, packageId, volume);
      ForgetIsUninstallResult(host.respond, host.cwd, fs0, packageId, volume, |e0|, listed.value);
      Chain(e1, host.events, |e0|);
      ExtendsTransitive(e0, e1, host.events);
    }

    /** `list_all_packages`: runs `pkgutil --pkgs` directly, not through the logging runner
        and with a failed query not fatal; records the answer before looking at the exit
        status; fails on a nonzero status; otherwise keeps the listing as a new snapshot. */
    method ListAllPackages(volume: string) returns (r: Result<seq<string>>)
      requires Valid()
      modifies this`allPackages, this`installedPackages, host`events
      ensures Valid()
      ensures host.events == old(host.events) + [Ran(ListCommand(volume))]
      ensures var resp := host.respond(|old(host.events)|, ListCommand(volume));
        allPackages == Some(resp)
        && (resp.rc != 0 ==>
              r == Err(ListingFailed(resp.rc, resp.out, resp.err)) && installedPackages == old(installedPackages))
        && (resp.rc == 0 ==>
              r == Ok(PackageList(resp.out))
              && |old(host.events)| !in Snapshots(old(installedPackages))
              && installedPackages == Some(Snapshots(old(installedPackages))[|old(host.events)| := r.value]))
    {
      var key := |host.events|;
      var ran := host.Run(ListCommand(volume), false);
      var resp := ran.value;
      allPackages := Some(resp);
      if resp.rc != 0 {
        return Err(ListingFailed(resp.rc, resp.out, resp.err));
      }
      var packageList := PackageList(resp.out);
      installedPackages := Some(Snapshots(installedPackages)[key := packageList]);
      r := Ok(packageList);
    }

    /** `find_new_packages`: takes a new listing and records the ids it has that the
        original listing lacks. */
    method FindNewPackages(volume: string, originalPackageList: seq<string>) returns (r: Result<seq<string>>)
      requires Valid()
      modifies this`allPackages, this`installedPackages, this`newPackages, host`events
      ensures Valid()
      ensures host.events == old(host.events) + [Ran(ListCommand(volume))]
      ensures var resp := host.respond(|old(host.events)|, ListCommand(volume));
        allPackages == Some(resp)
        && (resp.rc != 0 ==>
              r == Err(ListingFailed(resp.rc, resp.out, resp.err))
              && newPackages == old(newPackages) && installedPackages == old(installedPackages))
        && (resp.rc == 0 ==>
              r == Ok(NewPackages(PackageList(resp.out), originalPackageList)) && newPackages == Some(r.value)
              && |old(host.events)| !in Snapshots(old(installedPackages))
              && installedPackages == Some(Snapshots(old(installedPackages))[|old(host.events)| := PackageList(resp.out)]))
    {
      var latest :- ListAllPackages(volume);
      var added := NewPackages(latest, originalPackageList);
      newPackages := Some(added);
      r := Ok(added);
    }

    /** The first step of `run_module`'s survey: the original listing of every package,
        recorded in the verbose result. */
    method Baseline(volume: string) returns (r: Result<seq<string>>)
      requires Valid()
      modifies this`allPackages, this`installedPackages, this`originalPackageList, host`events
      ensures Valid()
      ensures host.events == old(host.events) + [Ran(ListCommand(volume))]
      ensures Extends(old(host.events), host.events) && OnlyProbes(host.events, |old(host.events)|)
      ensures var listing := host.respond(|old(host.events)|, ListCommand(volume));
        allPackages == Some(listing)
        && (listing.rc != 0 ==>
              r == Err(ListingFailed(listing.rc, listing.out, listing.err))
              && installedPackages == old(installedPackages) && originalPackageList == old(originalPackageList))
        && (listing.rc == 0 ==>
              r == Ok(PackageList(listing.out)) && originalPackageList == Some(r.value)
              && installedPackages == Some(Snapshots(old(installedPackages))[|old(host.events)| := r.value]))
    {
      CommandKinds("", volume, "", "");
      Append(host.events, [Ran(ListCommand(volume))]);
      r := ListAllPackages(volume);
      if r.Ok? {
        originalPackageList := Some(r.value);
      }
    }

    /** The second step of the survey: whether the package is present (`is_present`),
        recorded along with whether the run is going to change anything. */
    method Detect(params: Params, setup: Setup) returns (r: Result<bool>)
      requires Valid()
      modifies this`originallyPresent, this`changed, this`commands, this`pkgInfo, host`events
      ensures Valid()
      ensures Extends(old(host.events), host.events) && OnlyProbes(host.events, |old(host.events)|)
      ensures params.packageId.None? ==> r == Ok(host.Stat(setup.creates).Some?)
      ensures params.packageId.Some? ==>
        var probe := Probe(host.respond(|old(host.events)|, PkgInfoCommand(params.packageId.value, setup.volume)), host.cwd);
        r == (if probe.Ok? then Ok(probe.value.Installed?) else Err(probe.error))
        && pkgInfo == (if probe.Ok? then Some(probe.value) else old(pkgInfo))
      ensures params.packageId.Some? ==>
        var query := PkgInfoCommand(params.packageId.value, setup.volume);
        commands == Some(Entries(old(commands))[|old(host.events)| := CommandRecord(query, false, host.respond(|old(host.events)|, query))])
      ensures params.packageId.None? ==> pkgInfo == old(pkgInfo) && commands == old(commands)
      ensures |host.events| == |old(host.events)| + (if params.packageId.Some? then 1 else 0)
      ensures LogGrows(old(commands), commands, |old(host.events)|)
      ensures r.Ok? ==> originallyPresent == Some(r.value) && changed == (r.value != (params.state == Present))
      ensures r.Err? ==> originallyPresent == old(originallyPresent) && changed == old(changed)
      ensures (if r.Ok? then Some(r.value) else None)
              == Detected(params.packageId, setup, host.respond, host.cwd, host.fs, |old(host.events)|)
    {
      r := IsPresent(setup.creates, params.packageId, setup.volume);
      if r.Ok? {
        originallyPresent := Some(r.value);
        changed := r.value != (params.state == Present);
      }
    }

    /** The survey `run_module` makes before deciding anything: the original listing of
        every package, then whether the package is present (`is_present`), recorded along
        with whether the run is going to change anything. Nothing here changes the machine. */
    method Survey(params: Params, setup: Setup) returns (r: Result<bool>)
      requires Valid()
      modifies this`allPackages, this`installedPackages, this`originalPackageList, this`originallyPresent
      modifies this`changed, this`commands, this`pkgInfo, host`events
      ensures Valid()
      ensures Extends(old(host.events), host.events) && OnlyProbes(host.events, |old(host.events)|)
      ensures var n := |old(host.events)|;
        var listing := host.respond(n, ListCommand(setup.volume));
        (listing.rc != 0 ==> r == Err(ListingFailed(listing.rc, listing.out, listing.err)))
        && (listing.rc == 0 ==> originalPackageList == Some(PackageList(listing.out)))
        && (listing.rc == 0 && params.packageId.None? ==> r == Ok(host.Stat(setup.creates).Some?))
        && (listing.rc == 0 && params.packageId.Some? ==>
              var probe := Probe(host.respond(n + 1, PkgInfoCommand(params.packageId.value, setup.volume)), host.cwd);
              r == if probe.Ok? then Ok(probe.value.Installed?) else Err(probe.error))
      ensures var n := |old(host.events)|;
        var listing := host.respond(n, ListCommand(setup.volume));
        && allPackages == Some(listing)
        && installedPackages == (if listing.rc != 0 then old(installedPackages)
                                 else Some(Snapshots(old(installedPackages))[n := PackageList(listing.out)]))
        && (listing.rc == 0 && params.packageId.Some? ==>
              var probe := Probe(host.respond(n + 1, PkgInfoCommand(params.packageId.value, setup.volume)), host.cwd);
              pkgInfo == if probe.Ok? then Some(probe.value) else old(pkgInfo))
      ensures var n := |old(host.events)|;
        if host.respond(n, ListCommand(setup.volume)).rc == 0 && params.packageId.Some? then
          var query := PkgInfoCommand(params.packageId.value, setup.volume);
          commands == Some(Entries(old(commands))[n + 1 := CommandRecord(query, false, host.respond(n + 1, query))])
        else commands == old(commands)
      ensures r.Ok? ==> originallyPresent == Some(r.value) && changed == (r.value != (params.state == Present))
      ensures r.Err? ==> originallyPresent == old(originallyPresent) && changed == old(changed)
      ensures |host.events| == |old(host.events)|
        + (if host.respond(|old(host.events)|, ListCommand(setup.volume)).rc == 0 && params.packageId.Some? then 2 else 1)
      ensures (params.state == Present ==> params.pkgPath.Some?) && (params.state == Absent ==> params.packageId.Some?) ==>
        && (r.Ok? ==> |host.events| == |old(host.events)| + SurveyEvents(params.packageId))
        && (if r.Ok? then Some(r.value) else None) == Presence(params, setup, host.respond, host.cwd, host.fs, |old(host.events)|)
      ensures LogGrows(old(commands), commands, |old(host.events)|)
    {
      ghost var e0 := host.events;
      ghost var log0 := commands;
      var listed := Baseline(setup.volume);
      assert commands == log0;
      if listed.Err? {
        r := Err(listed.error);
      } else {
        ghost var e1 := host.events;
        assert |e1| == |e0| + 1;
        r := Detect(params, setup);
        Chain(e1, host.events, |e0|);
        ExtendsTransitive(e0, e1, host.events);
      }
    }

    /** The confident end of the `state=absent` branch, once the files were listed right
        after the trace `before`: `uninstall`, whose own listing is the second one. */
    method RemoveConfidently(packageId: string, volume: string, ghost before: seq<Event>) returns (r: Result<()>)
      requires Valid()
      requires host.events == before + [Ran(PkgInfoCommand(packageId, volume))] + [Ran(FilesCommand(packageId, volume))]
      modifies this`commands, this`pkgInfo, this`pkgFiles, this`verboseFiles, this`removal, this`forget
      modifies host`events, host`fs
      ensures Valid()
      ensures Extends(old(host.events), host.events) && NoInstall(host.events, |old(host.events)|)
      ensures host.fs == old(host.fs)
              || (verboseFiles.Some? && host.fs == SweepFs(old(host.fs), host.cwd, verboseFiles.value))
      ensures LogGrows(old(commands), commands, |old(host.events)|)
      ensures r == UninstallResult(host.respond, host.cwd, old(host.fs), packageId, volume, |before| + 2)
      ensures Uninstalled(host.respond, host.cwd, packageId, volume, |before| + 2, old(host.fs), host.fs, verboseFiles)
      ensures r.Ok? ==>
        verboseFiles.Some? && forget.Some? && (forall f | f in verboseFiles.value :: host.Stat(f) == None)
      ensures r.Ok? ==>
        verboseFiles.Some?
        && RanFrom(host.events, |before|, RemovalRun(packageId, volume, SweepEvents(old(host.fs), host.cwd, verboseFiles.value)))
    {
      ghost var e1, fs1 := host.events, host.fs;
      assert |e1| == |before| + 2;
      r := Uninstall(packageId, volume);
      if r.Ok? {
        RemovalRunFrom(before, e1, host.events, packageId, volume, SweepEvents(fs1, host.cwd, verboseFiles.value));
      }
    }

    /** The `state=absent` branch of `run_module` for a package that is present: lists its
        files and records them; then either uninstalls it, or, without confidence to
        remove, reports the files and fails, having changed nothing. */
    method RemoveBranch(packageId: string, volume: string, confident: bool) returns (r: Result<()>)
      requires Valid()
      modifies this`commands, this`pkgInfo, this`pkgFiles, this`verboseFiles, this`removal, this`forget
      modifies this`files, host`events, host`fs
      ensures Valid()
      ensures Extends(old(host.events), host.events) && NoInstall(host.events, |old(host.events)|)
      ensures var n := |old(host.events)|;
        var listed := FilesAt(host.respond, host.cwd, packageId, volume, n);
        (listed.Err? ==> r == Err(listed.error) && host.fs == old(host.fs) && files == old(files))
        && (!confident ==> host.fs == old(host.fs) && OnlyProbes(host.events, n))
        && (!confident && listed.Ok? ==>
              r == Err(NotConfident) && files == Some(listed.value) && verboseFiles == files)
      ensures var n := |old(host.events)|;
        var info := Probe(host.respond(n, PkgInfoCommand(packageId, volume)), host.cwd);
        var listed := FilesAt(host.respond, host.cwd, packageId, volume, n);
        listed.Err? || !confident ==>
          && commands == Some(FilesLog(old(commands), host.respond, host.cwd, packageId, volume, n))
          && pkgInfo == (if info.Ok? then Some(info.value) else old(pkgInfo))
          && pkgFiles == (if listed.Ok? then Some(listed.value) else old(pkgFiles))
      ensures LogGrows(old(commands), commands, |old(host.events)|)
      ensures confident ==> files == old(files)
      ensures confident ==>
        (host.fs == old(host.fs)
         || (verboseFiles.Some? && host.fs == SweepFs(old(host.fs), host.cwd, verboseFiles.value)))
      ensures r.Ok? ==>
        verboseFiles.Some? && forget.Some? && (forall f | f in verboseFiles.value :: host.Stat(f) == None)
      ensures r.Ok? ==>
        verboseFiles.Some?
        && RanFrom(host.events, |old(host.events)|,
                   RemovalRun(packageId, volume, SweepEvents(old(host.fs), host.cwd, verboseFiles.value)))
      ensures confident && FilesAt(host.respond, host.cwd, packageId, volume, |old(host.events)|).Ok? ==>
        && r == UninstallResult(host.respond, host.cwd, old(host.fs), packageId, volume, |old(host.events)| + 2)
        && Uninstalled(host.respond, host.cwd, packageId, volume, |old(host.events)| + 2, old(host.fs), host.fs, verboseFiles)
    {
      ghost var e0, fs0 := host.events, host.fs;
      var listed := PackageFiles(packageId, volume);
      ProbesAreHarmless(host.events, |e0|);
      if listed.Err? {
        return Err(listed.error);
      }
      verboseFiles := Some(listed.value);
      if confident {
        ghost var e1 := host.events;
        assert e1 == e0 + [Ran(PkgInfoCommand(packageId, volume))] + [Ran(FilesCommand(packageId, volume))];
        assert host.fs == fs0;
        r := RemoveConfidently(packageId, volume, e0);
        Chain(e1, host.events, |e0|);
        ExtendsTransitive(e0, e1, host.events);
      } else {
        files := Some(listed.value);
        r := Err(NotConfident);
      }
    }

    /** What `run_module` does outside check mode once it knows whether the package was
        `present`: installs a package that should be present and is not, removes one that
        should be absent and is present, and otherwise does nothing at all. */
    method Act(params: Params, setup: Setup, present: bool) returns (r: Result<()>)
      requires Valid()
      requires params.state == Present ==> params.pkgPath.Some?
      requires params.state == Absent ==> params.packageId.Some?
      modifies this`commands, this`pkgInfo, this`pkgFiles, this`verboseFiles, this`removal, this`forget
      modifies this`files, host`events, host`fs
      ensures Valid()
      ensures Extends(old(host.events), host.events)
      ensures present == (params.state == Present) ==>
        r == Ok(()) && host.events == old(host.events) && host.fs == old(host.fs) && files == old(files)
      ensures !NoInstall(host.events, |old(host.events)|) ==> params.state == Present && !present
      ensures !(host.fs == old(host.fs) && NoRemoval(host.events, |old(host.events)|)) ==>
        params.state == Absent && present && params.confidentToRemove
      ensures files == old(files)
              || (r == Err(NotConfident) && files.Some? && files == verboseFiles && host.fs == old(host.fs))
      ensures params.state == Present && !present ==>
        var resolved := Realpath(host.cwd, params.pkgPath.value);
        if old(host.Stat(resolved)) != Some(File) then
          r == Err(PkgFileNotFound(resolved)) && host.events == old(host.events)
        else
          host.events == old(host.events) + [Ran(InstallCommand(params.pkgPath.value, setup.target))]
      ensures params.state == Absent && present ==>
        var listed := FilesAt(host.respond, host.cwd, params.packageId.value, setup.volume, |old(host.events)|);
        (listed.Err? ==> r == Err(listed.error))
        && (listed.Ok? && !params.confidentToRemove ==> r == Err(NotConfident) && files == Some(listed.value))
      ensures params.state == Present && !present ==>
        r == InstallResult(host.respond, host.cwd, old(host.fs), params.pkgPath.value, setup.target, |old(host.events)|)
      ensures params.state == Absent && present && params.confidentToRemove
              && FilesAt(host.respond, host.cwd, params.packageId.value, setup.volume, |old(host.events)|).Ok? ==>
        && r == UninstallResult(host.respond, host.cwd, old(host.fs), params.packageId.value, setup.volume,
                                |old(host.events)| + 2)
        && Uninstalled(host.respond, host.cwd, params.packageId.value, setup.volume, |old(host.events)| + 2,
                       old(host.fs), host.fs, verboseFiles)
      ensures params.state == Absent && present && r.Ok? ==>
        verboseFiles.Some? && forget.Some? && (forall f | f in verboseFiles.value :: host.Stat(f) == None)
      ensures params.state == Absent && present && r.Ok? ==>
        verboseFiles.Some?
        && RanFrom(host.events, |old(host.events)|,
                   RemovalRun(params.packageId.value, setup.volume, SweepEvents(old(host.fs), host.cwd, verboseFiles.value)))
      ensures host.fs == old(host.fs)
              || (verboseFiles.Some? && host.fs == SweepFs(old(host.fs), host.cwd, verboseFiles.value))
      ensures LogGrows(old(commands), commands, |old(host.events)|)
    {
      if present == (params.state == Present) {
        return Ok(());
      }
      ghost var e0 := host.events;
      if params.state == Present {
        r := Install(params.pkgPath.value, setup.target);
        CommandKinds("", "", params.pkgPath.value, setup.target);
        Append(e0, [Ran(InstallCommand(params.pkgPath.value, setup.target))]);
        Append(e0, []);
        assert e0 + [] == e0;
      } else {
        r := RemoveBranch(params.packageId.value, setup.volume, params.confidentToRemove);
        if !params.confidentToRemove {
          ProbesAreHarmless(host.events, |e0|);
        }
      }
    }

    /** What `run_module` does once the survey has recorded whether the package was
        originally present: in check mode nothing more; otherwise the action. Returns the
        message for the run. `start` and `startLog` are the trace and the command log as
        they were before the survey, which only queried, running `SurveyEvents` commands. */
    method Decide(params: Params, checkMode: bool, setup: Setup, ghost start: seq<Event>,
                  ghost startLog: Option<map<nat, CommandRecord>>) returns (r: Result<string>)
      requires Valid() && originallyPresent.Some?
      requires Extends(start, host.events) && OnlyProbes(host.events, |start|)
      requires LogGrows(startLog, commands, |start|)
      requires |host.events| == |start| + SurveyEvents(params.packageId)
      requires params.state == Present ==> params.pkgPath.Some?
      requires params.state == Absent ==> params.packageId.Some?
      modifies this`commands, this`pkgInfo, this`pkgFiles, this`verboseFiles, this`removal, this`forget
      modifies this`files, host`events, host`fs
      ensures Valid()
      ensures Confined(params, checkMode, originallyPresent, start, host.events, old(host.fs), host.fs)
      ensures originallyPresent == Some(params.state == Present) ==> r.Ok?
      ensures files == old(files) || (r == Err(NotConfident) && files.Some? && files == verboseFiles)
      ensures r.Ok? ==> r.value == RunMessage(checkMode, params.appName, params.pkgPath)
      ensures r.Ok? && !checkMode && params.state == Absent && originallyPresent == Some(true) ==>
        verboseFiles.Some? && forget.Some? && (forall f | f in verboseFiles.value :: host.Stat(f) == None)
      ensures r.Ok? && !checkMode && params.state == Absent && originallyPresent == Some(true) ==>
        verboseFiles.Some?
        && RanFrom(host.events, |start| + 2,
                   RemovalRun(params.packageId.value, setup.volume, SweepEvents(old(host.fs), host.cwd, verboseFiles.value)))
      ensures host.fs == old(host.fs)
              || (verboseFiles.Some? && host.fs == SweepFs(old(host.fs), host.cwd, verboseFiles.value))
      ensures !checkMode && params.state == Absent && originallyPresent == Some(true) && !params.confidentToRemove ==>
        var listed := FilesAt(host.respond, host.cwd, params.packageId.value, setup.volume, |start| + 2);
        r == Err(if listed.Ok? then NotConfident else listed.error) && (listed.Ok? ==> files == Some(listed.value))
      ensures !checkMode && params.state == Present && originallyPresent == Some(false) ==>
        var resolved := Realpath(host.cwd, params.pkgPath.value);
        if old(host.Stat(resolved)) != Some(File) then
          r == Err(PkgFileNotFound(resolved)) && host.events == old(host.events)
        else
          host.events == old(host.events) + [Ran(InstallCommand(params.pkgPath.value, setup.target))]
      ensures checkMode ==> r == Ok(RunMessage(true, params.appName, params.pkgPath))
      ensures Settled(params, checkMode, setup, host.respond, host.cwd, |start|, originallyPresent,
                      old(host.fs), host.fs, verboseFiles, r)
      ensures LogGrows(startLog, commands, |start|)
    {
      ghost var e1, fs1, log1 := host.events, host.fs, commands;
      if checkMode {
        r := Ok(RunMessage(true, params.appName, params.pkgPath));
      } else {
        var acted := Act(params, setup, originallyPresent.value);
        r := WithMessage(acted, RunMessage(false, params.appName, params.pkgPath));
      }
      ConfinedAfterProbes(params, checkMode, originallyPresent, start, e1, host.events, fs1, host.fs);
      LogGrowsTransitive(startLog, log1, commands, |start|, |e1|);
    }

    /** The part of `run_module` after its two parameter checks: the survey and then,
        outside check mode, the action. Returns the message for the run. The installer may
        run only for a package that should be present and was not, and files may be removed
        only for a package that should be absent, was present, and was confidently
        removed; a package already in the desired state is only ever looked at. */
    method Reconcile(params: Params, checkMode: bool, setup: Setup) returns (r: Result<string>)
      requires Valid()
      requires !changed && originallyPresent.None? && files.None?
      requires params.state == Present ==> params.pkgPath.Some?
      requires params.state == Absent ==> params.packageId.Some?
      modifies this`allPackages, this`installedPackages, this`originalPackageList, this`originallyPresent
      modifies this`changed, this`commands, this`pkgInfo, this`pkgFiles, this`verboseFiles, this`removal
      modifies this`forget, this`files, host`events, host`fs
      ensures Valid()
      ensures Confined(params, checkMode, originallyPresent, old(host.events), host.events, old(host.fs), host.fs)
      ensures originallyPresent == Presence(params, setup, host.respond, host.cwd, old(host.fs), |old(host.events)|)
      ensures changed <==> originallyPresent.Some? && originallyPresent.value != (params.state == Present)
      ensures originallyPresent == Some(params.state == Present) ==> r.Ok?
      ensures files.Some? ==> r == Err(NotConfident) && files == verboseFiles
      ensures r.Ok? ==> originallyPresent.Some? && r.value == RunMessage(checkMode, params.appName, params.pkgPath)
      ensures r.Ok? && !checkMode && params.state == Absent && originallyPresent == Some(true) ==>
        verboseFiles.Some? && forget.Some? && (forall f | f in verboseFiles.value :: host.Stat(f) == None)
      ensures r.Ok? && !checkMode && params.state == Absent && originallyPresent == Some(true) ==>
        verboseFiles.Some?
        && RanFrom(host.events, |old(host.events)| + 2,
                   RemovalRun(params.packageId.value, setup.volume, SweepEvents(old(host.fs), host.cwd, verboseFiles.value)))
      ensures host.fs == old(host.fs)
              || (verboseFiles.Some? && host.fs == SweepFs(old(host.fs), host.cwd, verboseFiles.value))
      ensures !checkMode && params.state == Absent && originallyPresent == Some(true) && !params.confidentToRemove ==>
        var listed := FilesAt(host.respond, host.cwd, params.packageId.value, setup.volume, |old(host.events)| + 2);
        r == Err(if listed.Ok? then NotConfident else listed.error) && (listed.Ok? ==> files == Some(listed.value))
      ensures !checkMode && params.state == Present && originallyPresent == Some(false) ==>
        var resolved := Realpath(host.cwd, params.pkgPath.value);
        if old(host.Stat(resolved)) != Some(File) then r == Err(PkgFileNotFound(resolved))
        else Ran(InstallCommand(params.pkgPath.value, setup.target)) in host.events[|old(host.events)|..]
      ensures Settled(params, checkMode, setup, host.respond, host.cwd, |old(host.events)|, originallyPresent,
                      old(host.fs), host.fs, verboseFiles, r)
      ensures LogGrows(old(commands), commands, |old(host.events)|)
    {
      ghost var e0, log0 := host.events, commands;
      var surveyed := Survey(params, setup);
      if surveyed.Err? {
        ProbesAreHarmless(host.events, |e0|);
        r := Err(surveyed.error);
      } else {
        ghost var e1 := host.events;
        r := Decide(params, checkMode, setup, e0, log0);
        if params.pkgPath.Some? {
          AppendedAfter(e1, Ran(InstallCommand(params.pkgPath.value, setup.target)), |e0|);
        }
      }
    }

    /** The `try` block of `run_module`: the two parameter checks, then the rest
        (`Reconcile`). Returns the message for the run, or the error it raised. */
    method Attempt(params: Params, checkMode: bool, setup: Setup) returns (r: Result<string>)
      requires Valid()
      requires !changed && originallyPresent.None? && files.None?
      modifies this`allPackages, this`installedPackages, this`originalPackageList, this`originallyPresent
      modifies this`changed, this`commands, this`pkgInfo, this`pkgFiles, this`verboseFiles, this`removal
      modifies this`forget, this`files, host`events, host`fs
      ensures Valid()
      ensures Confined(params, checkMode, originallyPresent, old(host.events), host.events, old(host.fs), host.fs)
      ensures params.state == Present && params.pkgPath.None? ==>
        r == Err(MissingPkgPath) && host.events == old(host.events)
      ensures params.state == Absent && params.packageId.None? ==>
        r == Err(MissingPackageId) && host.events == old(host.events)
      ensures originallyPresent == Presence(params, setup, host.respond, host.cwd, old(host.fs), |old(host.events)|)
      ensures changed <==> originallyPresent.Some? && originallyPresent.value != (params.state == Present)
      ensures originallyPresent == Some(params.state == Present) ==> r.Ok?
      ensures files.Some? ==> r == Err(NotConfident) && files == verboseFiles
      ensures r.Ok? ==> originallyPresent.Some? && r.value == RunMessage(checkMode, params.appName, params.pkgPath)
      ensures r.Ok? && !checkMode && params.state == Absent && originallyPresent == Some(true) ==>
        verboseFiles.Some? && forget.Some? && (forall f | f in verboseFiles.value :: host.Stat(f) == None)
      ensures r.Ok? && !checkMode && params.state == Absent && params.packageId.Some? && originallyPresent == Some(true) ==>
        verboseFiles.Some?
        && RanFrom(host.events, |old(host.events)| + 2,
                   RemovalRun(params.packageId.value, setup.volume, SweepEvents(old(host.fs), host.cwd, verboseFiles.value)))
      ensures host.fs == old(host.fs)
              || (verboseFiles.Some? && host.fs == SweepFs(old(host.fs), host.cwd, verboseFiles.value))
      ensures !checkMode && params.state == Absent && params.packageId.Some? && originallyPresent == Some(true)
              && !params.confidentToRemove ==>
        var listed := FilesAt(host.respond, host.cwd, params.packageId.value, setup.volume, |old(host.events)| + 2);
        r == Err(if listed.Ok? then NotConfident else listed.error) && (listed.Ok? ==> files == Some(listed.value))
      ensures !checkMode && params.state == Present && params.pkgPath.Some? && originallyPresent == Some(false) ==>
        var resolved := Realpath(host.cwd, params.pkgPath.value);
        if old(host.Stat(resolved)) != Some(File) then r == Err(PkgFileNotFound(resolved))
        else Ran(InstallCommand(params.pkgPath.value, setup.target)) in host.events[|old(host.events)|..]
      ensures Settled(params, checkMode, setup, host.respond, host.cwd, |old(host.events)|, originallyPresent,
                      old(host.fs), host.fs, verboseFiles, r)
      ensures LogGrows(old(commands), commands, |old(host.events)|)
    {
      if params.state == Present && params.pkgPath.None? {
        r := Err(MissingPkgPath);
      } else if params.state == Absent && params.packageId.None? {
        r := Err(MissingPackageId);
      } else {
        r := Reconcile(params, checkMode, setup);
      }
    }

    /** The defaults `run_module` records before anything else: the desired state, the
        volume, the install target and the marker path. */
    method Configure(params: Params, isRoot: bool, home: string) returns (setup: Setup)
      modifies this`shouldBePresent, this`creates, this`target, this`volume
      ensures setup == Defaults(isRoot, home, params.appName, params.target, params.creates)
      ensures shouldBePresent == Some(params.state == Present)
      ensures creates == Some(setup.creates) && target == Some(setup.target) && volume == Some(setup.volume)
    {
      shouldBePresent := Some(params.state == Present);
      setup := Defaults(isRoot, home, params.appName, params.target, params.creates);
      creates, target, volume := Some(setup.creates), Some(setup.target), Some(setup.volume);
    }

    /** How `run_module` ends once the guarded part has returned: success exits with the
        messages joined; a fatal command failure has already ended the module inside the
        command runner; any other failure is attached to the result and fails the module. */
    method Conclude(r: Result<string>, setup: Setup) returns (outcome: Outcome)
      modifies this`messages, this`error
      ensures r.Ok? ==> outcome == Exited && messages == Some(setup.message + ". " + r.value) && error == old(error)
      ensures r.Err? && r.error.ProcessFailed? ==>
        outcome == Terminated(r.error) && messages == old(messages) && error == old(error)
      ensures r.Err? && !r.error.ProcessFailed? ==>
        outcome == Failed(r.error) && messages == old(messages) && error == Some(r.error)
      ensures error == if outcome.Failed? then Some(outcome.error) else old(error)
      ensures outcome == Ending(r)
    {
      if r.Ok? {
        messages := Some(setup.message + ". " + r.value);
        outcome := Exited;
      } else if r.error.ProcessFailed? {
        outcome := Terminated(r.error);
      } else {
        error := Some(r.error);
        outcome := Failed(r.error);
      }
    }

    /** What `run_module` does once its defaults are recorded: its `try` block (`Attempt`),
        then the ending `Conclude` gives it. */
    method Execute(params: Params, checkMode: bool, setup: Setup) returns (outcome: Outcome)
      requires Valid()
      requires !changed && originallyPresent.None? && files.None? && error.None?
      modifies this`allPackages, this`installedPackages, this`originalPackageList, this`originallyPresent
      modifies this`changed, this`commands, this`pkgInfo, this`pkgFiles, this`verboseFiles, this`removal
      modifies this`forget, this`files, this`messages, this`error, host`events, host`fs
      ensures Valid()
      ensures Confined(params, checkMode, originallyPresent, old(host.events), host.events, old(host.fs), host.fs)
      ensures params.state == Present && params.pkgPath.None? ==>
        outcome == Failed(MissingPkgPath) && host.events == old(host.events)
      ensures params.state == Absent && params.packageId.None? ==>
        outcome == Failed(MissingPackageId) && host.events == old(host.events)
      ensures originallyPresent == Presence(params, setup, host.respond, host.cwd, old(host.fs), |old(host.events)|)
      ensures changed <==> originallyPresent.Some? && originallyPresent.value != (params.state == Present)
      ensures originallyPresent == Some(params.state == Present) ==> outcome == Exited
      ensures files.Some? ==> outcome == Failed(NotConfident) && files == verboseFiles
      ensures outcome.Exited? ==>
        messages == Some(setup.message + ". " + RunMessage(checkMode, params.appName, params.pkgPath))
      ensures outcome.Exited? && !checkMode && params.state == Absent && originallyPresent == Some(true) ==>
        verboseFiles.Some? && forget.Some? && (forall f | f in verboseFiles.value :: host.Stat(f) == None)
      ensures outcome.Exited? && !checkMode && params.state == Absent && params.packageId.Some?
              && originallyPresent == Some(true) ==>
        verboseFiles.Some?
        && RanFrom(host.events, |old(host.events)| + 2,
                   RemovalRun(params.packageId.value, setup.volume, SweepEvents(old(host.fs), host.cwd, verboseFiles.value)))
      ensures host.fs == old(host.fs)
              || (verboseFiles.Some? && host.fs == SweepFs(old(host.fs), host.cwd, verboseFiles.value))
      ensures !checkMode && params.state == Absent && params.packageId.Some? && originallyPresent == Some(true)
              && !params.confidentToRemove ==>
        var listed := FilesAt(host.respond, host.cwd, params.packageId.value, setup.volume, |old(host.events)| + 2);
        !outcome.Exited? && (listed.Ok? ==> outcome == Failed(NotConfident) && files == Some(listed.value))
      ensures !checkMode && params.state == Present && params.pkgPath.Some? && originallyPresent == Some(false) ==>
        var resolved := Realpath(host.cwd, params.pkgPath.value);
        if old(host.Stat(resolved)) != Some(File) then outcome == Failed(PkgFileNotFound(resolved))
        else Ran(InstallCommand(params.pkgPath.value, setup.target)) in host.events[|old(host.events)|..]
      ensures (outcome.Failed? <==> error.Some?) && (outcome.Failed? ==> error == Some(outcome.error))
      ensures outcome.Failed? || outcome.Terminated? ==> (outcome.error.ProcessFailed? <==> outcome.Terminated?)
      ensures Ends(params, checkMode, setup, host.respond, host.cwd, |old(host.events)|, originallyPresent,
                   old(host.fs), host.fs, verboseFiles, outcome)
      ensures LogGrows(old(commands), commands, |old(host.events)|)
    {
      ghost var n, fs0 := |host.events|, host.fs;
      var r := Attempt(params, checkMode, setup);
      ghost var fs1, e1 := host.fs, host.events;
      outcome := Conclude(r, setup);
      assert host.fs == fs1 && host.events == e1;
      SettledEnds(params, checkMode, setup, host.respond, host.cwd, n, originallyPresent, fs0, fs1, verboseFiles, r);
    }

    /** `run_module`: records the defaults (`Configure`), and does the rest
        (`Execute`). What the run may do to the machine is `Confined`; the messages of a successful
        run name the user the module ran as and whether it only checked. */
    method RunModule(params: Params, checkMode: bool, isRoot: bool, home: string) returns (outcome: Outcome)
      requires Fresh()
      modifies this`shouldBePresent, this`creates, this`target, this`volume
      modifies this`allPackages, this`installedPackages, this`originalPackageList, this`originallyPresent
      modifies this`changed, this`commands, this`pkgInfo, this`pkgFiles, this`verboseFiles, this`removal
      modifies this`forget, this`files, this`messages, this`error, host`events, host`fs
      ensures Valid()
      ensures Confined(params, checkMode, originallyPresent, old(host.events), host.events, old(host.fs), host.fs)
      ensures params.state == Present && params.pkgPath.None? ==>
        outcome == Failed(MissingPkgPath) && host.events == old(host.events)
      ensures params.state == Absent && params.packageId.None? ==>
        outcome == Failed(MissingPackageId) && host.events == old(host.events)
      ensures var setup := Defaults(isRoot, home, params.appName, params.target, params.creates);
        originallyPresent == Presence(params, setup, host.respond, host.cwd, old(host.fs), |old(host.events)|)
      ensures changed <==> originallyPresent.Some? && originallyPresent.value != (params.state == Present)
      ensures originallyPresent == Some(params.state == Present) ==> outcome == Exited
      ensures files.Some? ==> outcome == Failed(NotConfident) && files == verboseFiles
      ensures outcome.Exited? ==>
        messages == Some(Defaults(isRoot, home, params.appName, params.target, params.creates).message
                         + ". " + RunMessage(checkMode, params.appName, params.pkgPath))
      ensures outcome.Exited? && !checkMode && params.state == Absent && originallyPresent == Some(true) ==>
        verboseFiles.Some? && forget.Some? && (forall f | f in verboseFiles.value :: host.Stat(f) == None)
      ensures outcome.Exited? && !checkMode && params.state == Absent && params.packageId.Some?
              && originallyPresent == Some(true) ==>
        var setup := Defaults(isRoot, home, params.appName, params.target, params.creates);
        verboseFiles.Some?
        && RanFrom(host.events, |old(host.events)| + 2,
                   RemovalRun(params.packageId.value, setup.volume, SweepEvents(old(host.fs), host.cwd, verboseFiles.value)))
      ensures host.fs == old(host.fs)
              || (verboseFiles.Some? && host.fs == SweepFs(old(host.fs), host.cwd, verboseFiles.value))
      ensures !checkMode && params.state == Absent && params.packageId.Some? && originallyPresent == Some(true)
              && !params.confidentToRemove ==>
        var setup := Defaults(isRoot, home, params.appName, params.target, params.creates);
        var listed := FilesAt(host.respond, host.cwd, params.packageId.value, setup.volume, |old(host.events)| + 2);
        !outcome.Exited? && (listed.Ok? ==> outcome == Failed(NotConfident) && files == Some(listed.value))
      ensures !checkMode && params.state == Present && params.pkgPath.Some? && originallyPresent == Some(false) ==>
        var setup := Defaults(isRoot, home, params.appName, params.target, params.creates);
        var resolved := Realpath(host.cwd, params.pkgPath.value);
        if old(host.Stat(resolved)) != Some(File) then outcome == Failed(PkgFileNotFound(resolved))
        else Ran(InstallCommand(params.pkgPath.value, setup.target)) in host.events[|old(host.events)|..]
      ensures (outcome.Failed? <==> error.Some?) && (outcome.Failed? ==> error == Some(outcome.error))
      ensures outcome.Failed? || outcome.Terminated? ==> (outcome.error.ProcessFailed? <==> outcome.Terminated?)
      ensures Ends(params, checkMode, Defaults(isRoot, home, params.appName, params.target, params.creates),
                   host.respond, host.cwd, |old(host.events)|, originallyPresent, old(host.fs), host.fs, verboseFiles, outcome)
      ensures LogGrows(old(commands), commands, |old(host.events)|)
    {
      var setup := Configure(params, isRoot, home);
      outcome := Execute(params, checkMode, setup);
    }
  }
}

=== FILE: paths.dfy ===
/** Path strings and the abstract filesystem the installer inspects and prunes.

    `os.path.join` is modelled exactly on strings. `os.path.realpath` is modelled as lexical
    resolution: the path is made absolute against the working directory, then empty and
    `.` components are dropped and `..` removes the component before it (the root has no
    parent). Symbolic links are not part of the model, so lexical resolution is what
    `realpath` computes. The filesystem maps resolved paths to what is there. */
module Paths {
  import opened Errors
  import opened Text

  /** A resolved absolute path, as its components below the root. */
  type Path = seq<string>

  predicate IsComponent(c: string) {
    c != "" && c != "." && c != ".." && '/' !in c
  }

  predicate Canonical(p: Path) {
    forall i | 0 <= i < |p| :: IsComponent(p[i])
  }

  predicate NoSlash(parts: seq<string>) {
    forall i | 0 <= i < |parts| :: '/' !in parts[i]
  }

  predicate IsAbsolute(s: string) {
    |s| > 0 && s[0] == '/'
  }

  predicate EndsWithSlash(s: string) {
    |s| > 0 && s[|s| - 1] == '/'
  }

  /** `os.path.join(a, b)`: an absolute `b` replaces `a`; otherwise `b` is appended after a
      single `/`, which is not doubled when `a` is empty or already ends in `/`. */
  function JoinPath(a: string, b: string): string {
    if IsAbsolute(b) then b
    else if a == "" || EndsWithSlash(a) then a + b
    else a + "/" + b
  }

  /** A relative `b` is appended to `a`, keeping both intact, with one separator added
      only where `a` does not already end in one; an absolute `b` is the result. */
  lemma JoinPathShape(a: string, b: string)
    ensures IsAbsolute(b) ==> JoinPath(a, b) == b
    ensures var r := JoinPath(a, b);
      !IsAbsolute(b) ==>
        && |r| == |a| + |b| + (if a == "" || EndsWithSlash(a) then 0 else 1)
        && r[..|a|] == a && r[|r| - |b|..] == b
  {
  }

  /** Resolves the components `parts` one by one, starting from the resolved `acc`. */
  function Walk(acc: Path, parts: seq<string>): (r: Path)
    requires Canonical(acc) && NoSlash(parts)
    ensures Canonical(r)
    decreases |parts|
  {
    if parts == [] then acc
    else
      var c := parts[0];
      if c == "" || c == "." then Walk(acc, parts[1..])
      else if c == ".." then Walk(if acc == [] then [] else acc[..|acc| - 1], parts[1..])
      else Walk(acc + [c], parts[1..])
  }

  /** Resolving a path written in two pieces is resolving the pieces one after the other. */
  lemma {:induction false} WalkConcat(acc: Path, p1: seq<string>, p2: seq<string>)
    requires Canonical(acc) && NoSlash(p1) && NoSlash(p2)
    ensures NoSlash(p1 + p2)
    ensures Walk(acc, p1 + p2) == Walk(Walk(acc, p1), p2)
    decreases |p1|
  {
    assert NoSlash(p1 + p2) by {
      forall i | 0 <= i < |p1 + p2| ensures '/' !in (p1 + p2)[i] {
        if i < |p1| { assert (p1 + p2)[i] == p1[i]; } else { assert (p1 + p2)[i] == p2[i - |p1|]; }
      }
    }
    if p1 != [] {
      assert (p1 + p2)[1..] == p1[1..] + p2;
      var c := p1[0];
      var next := if c == "" || c == "." then acc
                  else if c == ".." then (if acc == [] then [] else acc[..|acc| - 1])
                  else acc + [c];
      assert (p1 + p2)[0] == c;
      assert Walk(acc, p1) == Walk(next, p1[1..]);
      assert Walk(acc, p1 + p2) == Walk(next, p1[1..] + p2);
      WalkConcat(next, p1[1..], p2);
    } else {
      assert p1 + p2 == p2;
    }
  }

  /** Already-resolved components resolve to themselves. */
  lemma {:induction false} WalkCanonical(acc: Path, cs: Path)
    requires Canonical(acc) && Canonical(cs)
    ensures NoSlash(cs) && Walk(acc, cs) == acc + cs
    decreases |cs|
  {
    if cs != [] {
      WalkCanonical(acc + [cs[0]], cs[1..]);
      assert acc + [cs[0]] + cs[1..] == acc + cs;
    }
  }

  function SplitPath(s: string): (r: seq<string>)
    ensures NoSlash(r)
  {
    Split(s, '/')
  }

  /** The working-directory components a relative path starts from. */
  function Start(cwd: string, s: string): Path {
    if IsAbsolute(s) then [] else Walk([], SplitPath(cwd))
  }

  /** The resolved components of `s` (relative paths are taken from `cwd`). */
  function Resolve(cwd: string, s: string): Path {
    Walk(Start(cwd, s), SplitPath(s))
  }

  /** The absolute path string naming resolved components. */
  function Render(p: Path): string {
    "/" + JoinWith(p, "/")
  }

  /** `os.path.realpath(s)`, without symbolic links. */
  function Realpath(cwd: string, s: string): (r: string)
    ensures IsAbsolute(r)
  {
    Render(Resolve(cwd, s))
  }

  /** Rendering resolved components and resolving the result gives the components back. */
  lemma ResolveRender(cwd: string, p: Path)
    requires Canonical(p)
    ensures Resolve(cwd, Render(p)) == p
  {
    var j := JoinWith(p, "/");
    assert Render(p) == [] + ['/'] + j;
    SplitConcat([], j, '/');
    if p == [] {
      assert SplitPath(Render(p)) == [[], []];
      assert Walk([], [[], []]) == Walk([], [[]]) == Walk([], []);
    } else {
      assert forall i | 0 <= i < |p| :: '/' !in p[i];
      SplitJoinWith(p, '/');
      assert SplitPath(Render(p)) == [[]] + p;
      WalkCanonical([], p);
      assert ([[]] + p)[1..] == p;
    }
  }

  /** `realpath` is idempotent: a resolved path resolves to itself. */
  lemma RealpathIdempotent(cwd: string, s: string)
    ensures Realpath(cwd, Realpath(cwd, s)) == Realpath(cwd, s)
    ensures Resolve(cwd, Realpath(cwd, s)) == Resolve(cwd, s)
  {
    ResolveRender(cwd, Resolve(cwd, s));
  }

  /** The root `/` resolves to no components. */
  lemma ResolveRoot(cwd: string)
    ensures Resolve(cwd, "/") == []
  {
    assert "/" == [] + ['/'] + [];
    SplitConcat([], [], '/');
    assert SplitPath("/") == [[], []];
    assert Walk([], [[], []]) == Walk([], [[]]) == Walk([], []);
  }

  /** The string `a + '/' + b` (with `a` not empty) names `b` walked from `a`, whether
      or not `b` is written as an absolute path (a `..` in `b` can climb above `a`). */
  lemma ResolveSlashConcat(cwd: string, a: string, b: string)
    requires a != ""
    ensures Resolve(cwd, a + "/" + b) == Walk(Resolve(cwd, a), SplitPath(b))
  {
    var s := a + "/" + b;
    assert s == a + ['/'] + b;
    assert Start(cwd, s) == Start(cwd, a);
    SplitConcat(a, b, '/');
    WalkConcat(Start(cwd, a), SplitPath(a), SplitPath(b));
  }

  /** `os.path.join(a, b)` with a relative `b` names the path `b` walked from `a`. */
  lemma ResolveJoinPath(cwd: string, a: string, b: string)
    requires !IsAbsolute(b)
    ensures Resolve(cwd, JoinPath(a, b)) == Walk(Resolve(cwd, a), SplitPath(b))
  {
    var start := Start(cwd, a);
    if a == "" {
      assert JoinPath(a, b) == b;
      assert SplitPath(a) == [[]];
    } else if EndsWithSlash(a) {
      var a' := a[..|a| - 1];
      assert a == a' + ['/'] + [];
      assert JoinPath(a, b) == a' + ['/'] + b;
      assert Start(cwd, JoinPath(a, b)) == start;
      SplitConcat(a', [], '/');
      SplitConcat(a', b, '/');
      WalkConcat(start, SplitPath(a'), [[]]);
      WalkConcat(start, SplitPath(a'), SplitPath(b));
    } else {
      assert JoinPath(a, b) == a + ['/'] + b;
      assert Start(cwd, JoinPath(a, b)) == start;
      SplitConcat(a, b, '/');
      WalkConcat(start, SplitPath(a), SplitPath(b));
    }
  }

  /** Joining a single component onto `a` names that component beneath `a`. */
  lemma ResolveJoinComponent(cwd: string, a: string, c: string)
    requires IsComponent(c)
    ensures Resolve(cwd, JoinPath(a, c)) == Resolve(cwd, a) + [c]
  {
    ResolveJoinPath(cwd, a, c);
    SplitNoSeparator(c, '/');
    WalkCanonical(Resolve(cwd, a), [c]);
  }

  // ---------------------------------------------------------------------------
  // The filesystem
  // ---------------------------------------------------------------------------

  datatype Kind = File | Dir

  /** What is at each resolved path. */
  type FileSystem = map<Path, Kind>

  /** What `os.stat` finds at the path string `s`: the empty string names nothing, and a
      path written with a trailing `/` names a directory only, so a file named that way is
      not found. */
  function Lookup(fs: FileSystem, cwd: string, s: string): Option<Kind> {
    var p := Resolve(cwd, s);
    if s == "" || p !in fs then None
    else if fs[p] == File && EndsWithSlash(s) then None
    else Some(fs[p])
  }

  /** `q` is `p` or lies beneath it. */
  predicate Beneath(p: Path, q: Path) {
    |p| <= |q| && q[..|p|] == p
  }

  /** `shutil.rmtree`: the directory and everything beneath it are gone. */
  function WithoutTree(fs: FileSystem, p: Path): FileSystem {
    map q | q in fs && !Beneath(p, q) :: fs[q]
  }

  /** `os.remove`: the one entry is gone. */
  function WithoutEntry(fs: FileSystem, p: Path): FileSystem {
    fs - {p}
  }

  /** `small` keeps some of the entries of `big`, unchanged. */
  predicate Shrunk(small: FileSystem, big: FileSystem) {
    forall q | q in small :: q in big && big[q] == small[q]
  }

  /** Nothing comes back once it is gone: a path not found in a filesystem is not found in
      any pruned copy of it either. */
  lemma LookupShrunk(small: FileSystem, big: FileSystem, cwd: string, s: string)
    requires Shrunk(small, big)
    requires Lookup(big, cwd, s) == None
    ensures Lookup(small, cwd, s) == None
  {
  }
}

=== FILE: removal.dfy ===
/** What the removal loop of `uninstall` does to the filesystem, stated as functions of the
    filesystem before the loop and the manifest it walks: each path is looked up when its
    turn comes, a directory is removed with everything beneath it, a file is removed on
    its own, and a path that is no longer there (or never was) is passed over. */
module Removal {
  import opened Errors
  import opened Paths
  import opened HostModel

  /** The removal the loop performs on reaching `p`, if any. */
  function Visit(fs: FileSystem, cwd: string, p: string): (e: Option<Event>)
    ensures e == Some(RemovedTree(p)) <==> Lookup(fs, cwd, p) == Some(Dir)
    ensures e == Some(RemovedFile(p)) <==> Lookup(fs, cwd, p) == Some(File)
    ensures e.None? <==> Lookup(fs, cwd, p).None?
  {
    match Lookup(fs, cwd, p)
    case Some(Dir) => Some(RemovedTree(p))
    case Some(File) => Some(RemovedFile(p))
    case None => None
  }

  /** The filesystem after one removal. */
  function Apply(fs: FileSystem, cwd: string, e: Event): FileSystem {
    match e
    case RemovedTree(p) => WithoutTree(fs, Resolve(cwd, p))
    case RemovedFile(p) => WithoutEntry(fs, Resolve(cwd, p))
    case Ran(_) => fs
  }

  /** The filesystem after the loop has visited `p`. */
  function AfterVisit(fs: FileSystem, cwd: string, p: string): FileSystem {
    match Visit(fs, cwd, p)
    case None => fs
    case Some(e) => Apply(fs, cwd, e)
  }

  /** The removals the loop performs on visiting `p`: one, or none. */
  function VisitEvents(fs: FileSystem, cwd: string, p: string): seq<Event> {
    match Visit(fs, cwd, p)
    case None => []
    case Some(e) => [e]
  }

  /** The filesystem after the loop has visited every path of `files`, in order. */
  function SweepFs(fs: FileSystem, cwd: string, files: seq<string>): FileSystem
    decreases |files|
  {
    if files == [] then fs
    else AfterVisit(SweepFs(fs, cwd, files[..|files| - 1]), cwd, files[|files| - 1])
  }

  /** The removals the loop performs while visiting `files`, in order. */
  function SweepEvents(fs: FileSystem, cwd: string, files: seq<string>): seq<Event>
    decreases |files|
  {
    if files == [] then []
    else
      var init := files[..|files| - 1];
      SweepEvents(fs, cwd, init) + VisitEvents(SweepFs(fs, cwd, init), cwd, files[|files| - 1])
  }

  /** The line the loop records for a removal. */
  function RemovalLine(e: Event): string {
    match e
    case RemovedTree(p) => "Removing directory: " + p
    case RemovedFile(p) => "Removing file: " + p
    case Ran(_) => ""
  }

  /** The removal record of a sequence of removals, one line each. */
  function RemovalLog(evs: seq<Event>): (r: seq<string>)
    ensures |r| == |evs|
    ensures forall i | 0 <= i < |evs| :: r[i] == RemovalLine(evs[i])
  {
    seq(|evs|, i requires 0 <= i < |evs| => RemovalLine(evs[i]))
  }

  /** The record of two runs of removals is the two records one after the other. */
  lemma RemovalLogConcat(a: seq<Event>, b: seq<Event>)
    ensures RemovalLog(a + b) == RemovalLog(a) + RemovalLog(b)
  {
    assert forall i | 0 <= i < |a + b| :: RemovalLog(a + b)[i] == (RemovalLog(a) + RemovalLog(b))[i];
  }

  /** A removal only ever takes entries away, and leaves the others as they were. */
  lemma ApplyShrinks(fs: FileSystem, cwd: string, e: Event)
    ensures Shrunk(Apply(fs, cwd, e), fs)
  {
  }

  lemma ShrunkTransitive(a: FileSystem, b: FileSystem, c: FileSystem)
    requires Shrunk(a, b) && Shrunk(b, c)
    ensures Shrunk(a, c)
  {
  }

  /** The sweep only ever takes entries away. */
  lemma {:induction false} SweepShrinks(fs: FileSystem, cwd: string, files: seq<string>)
    ensures Shrunk(SweepFs(fs, cwd, files), fs)
    decreases |files|
  {
    if files != [] {
      var before := SweepFs(fs, cwd, files[..|files| - 1]);
      SweepShrinks(fs, cwd, files[..|files| - 1]);
      VisitShrinks(before, cwd, files[|files| - 1]);
      ShrunkTransitive(SweepFs(fs, cwd, files), before, fs);
    }
  }

  /** A visit only ever takes entries away. */
  lemma VisitShrinks(fs: FileSystem, cwd: string, p: string)
    ensures Shrunk(AfterVisit(fs, cwd, p), fs)
  {
    match Visit(fs, cwd, p)
    case None =>
    case Some(e) => ApplyShrinks(fs, cwd, e);
  }

  /** The path just visited is gone, whatever was there. */
  lemma VisitRemoves(fs: FileSystem, cwd: string, p: string)
    ensures Lookup(AfterVisit(fs, cwd, p), cwd, p) == None
  {
    var q := Resolve(cwd, p);
    match Visit(fs, cwd, p)
    case None =>
    case Some(e) =>
      if e.RemovedTree? {
        assert Beneath(q, q);
        assert q !in WithoutTree(fs, q);
      }
  }

  /** After the loop, no path of the manifest is found any more. */
  lemma {:induction false} SweepGone(fs: FileSystem, cwd: string, files: seq<string>)
    ensures forall f | f in files :: Lookup(SweepFs(fs, cwd, files), cwd, f) == None
    decreases |files|
  {
    if files != [] {
      var init, last := files[..|files| - 1], files[|files| - 1];
      var before := SweepFs(fs, cwd, init);
      var after := SweepFs(fs, cwd, files);
      SweepGone(fs, cwd, init);
      VisitRemoves(before, cwd, last);
      VisitShrinks(before, cwd, last);
      forall f | f in files
        ensures Lookup(after, cwd, f) == None
      {
        if f != last {
          assert f in init;
          LookupShrunk(after, before, cwd, f);
        }
      }
    }
  }

  /** An entry that no manifest path covers survives the loop unchanged. */
  lemma {:induction false} SweepSpares(fs: FileSystem, cwd: string, files: seq<string>, q: Path)
    requires q in fs
    requires forall f | f in files :: !Beneath(Resolve(cwd, f), q)
    ensures q in SweepFs(fs, cwd, files) && SweepFs(fs, cwd, files)[q] == fs[q]
    decreases |files|
  {
    if files != [] {
      var init, last := files[..|files| - 1], files[|files| - 1];
      assert forall f | f in init :: f in files;
      SweepSpares(fs, cwd, init, q);
      assert !Beneath(Resolve(cwd, last), q);
    }
  }

  /** Each removal the loop performs is of a manifest path, no path is removed twice, and
      so there are at most as many removals as paths. (That they come in manifest order
      is `SweepStep`.) */
  lemma {:induction false} SweepEventsRemovals(fs: FileSystem, cwd: string, files: seq<string>)
    ensures |SweepEvents(fs, cwd, files)| <= |files|
    ensures forall i | 0 <= i < |SweepEvents(fs, cwd, files)| ::
      var e := SweepEvents(fs, cwd, files)[i];
      (e.RemovedTree? || e.RemovedFile?) && e.path in files
    ensures forall i, j | 0 <= i < j < |SweepEvents(fs, cwd, files)| ::
      SweepEvents(fs, cwd, files)[i].path != SweepEvents(fs, cwd, files)[j].path
    decreases |files|
  {
    if files != [] {
      var init, last := files[..|files| - 1], files[|files| - 1];
      var before := SweepEvents(fs, cwd, init);
      var all := SweepEvents(fs, cwd, files);
      SweepEventsRemovals(fs, cwd, init);
      SweepGone(fs, cwd, init);
      assert forall f | f in init :: f in files;
      forall i, j | 0 <= i < j < |all|
        ensures all[i].path != all[j].path
      {
        if j >= |before| {
          assert all[i] == before[i];
          assert all[j].path == last && Lookup(SweepFs(fs, cwd, init), cwd, last).Some?;
        }
      }
    }
  }

  /** The sweep of the first `i + 1` paths is the sweep of the first `i` followed by the
      visit of the next: the step the loop takes. */
  lemma SweepStep(fs: FileSystem, cwd: string, files: seq<string>, i: nat)
    requires i < |files|
    ensures SweepFs(fs, cwd, files[..i + 1]) == AfterVisit(SweepFs(fs, cwd, files[..i]), cwd, files[i])
    ensures SweepEvents(fs, cwd, files[..i + 1])
            == SweepEvents(fs, cwd, files[..i]) + VisitEvents(SweepFs(fs, cwd, files[..i]), cwd, files[i])
  {
    assert files[..i + 1][..i] == files[..i];
  }
}

=== FILE: text.dfy ===
/** The string operations the installer borrows from Python: `str.strip()`, `str.split(sep)`,
    `sep.join(parts)`, `int(text)` on a decimal literal, and the "last occurrence of a key"
    search that the greedy pattern in `parse_out` performs. */
module Text {
  import opened Errors

  // ---------------------------------------------------------------------------
  // Whitespace and str.strip()
  // ---------------------------------------------------------------------------

  /** Python's `str.isspace()` on the ASCII range: tab, newline, vertical tab, form feed,
      carriage return, the four separator controls 0x1c-0x1f, and space. */
  predicate IsSpace(c: char) {
    c == ' ' || (9 <= c as int <= 13) || (28 <= c as int <= 31)
  }

  predicate AllSpace(s: string) {
    forall k | 0 <= k < |s| :: IsSpace(s[k])
  }

  /** `s.lstrip()`: drops the leading whitespace and nothing else. */
  function StripLeft(s: string): string
    decreases |s|
  {
    if |s| > 0 && IsSpace(s[0]) then StripLeft(s[1..]) else s
  }

  /** `s.rstrip()`: drops the trailing whitespace and nothing else. */
  function StripRight(s: string): string
    decreases |s|
  {
    if |s| > 0 && IsSpace(s[|s| - 1]) then StripRight(s[..|s| - 1]) else s
  }

  /** `s.strip()`. */
  function Strip(s: string): string {
    StripRight(StripLeft(s))
  }

  /** `lstrip` keeps a suffix of the text, removes only whitespace, and stops at the first
      character that is not whitespace. */
  lemma {:induction false} StripLeftShape(s: string)
    ensures var r := StripLeft(s);
      |r| <= |s| && r == s[|s| - |r|..] && AllSpace(s[..|s| - |r|]) && (r == [] || !IsSpace(r[0]))
    decreases |s|
  {
    if |s| > 0 && IsSpace(s[0]) {
      StripLeftShape(s[1..]);
      var r := StripLeft(s);
      var n := |s| - |r|;
      assert s[1..][..n - 1] == s[1..n];
      assert forall k | 1 <= k < n :: s[k] == s[1..n][k - 1];
    }
  }

  /** `rstrip` keeps a prefix of the text, removes only whitespace, and stops at the last
      character that is not whitespace. */
  lemma {:induction false} StripRightShape(s: string)
    ensures var r := StripRight(s);
      |r| <= |s| && r == s[..|r|] && AllSpace(s[|r|..]) && (r == [] || !IsSpace(r[|r| - 1]))
    decreases |s|
  {
    if |s| > 0 && IsSpace(s[|s| - 1]) {
      var t := s[..|s| - 1];
      StripRightShape(t);
      var r := StripRight(s);
      assert t[..|r|] == s[..|r|];
      assert forall k | |r| <= k < |s| - 1 :: s[k] == t[|r|..][k - |r|];
    }
  }

  /** `strip` keeps the slice of the text between its leading and its trailing whitespace. */
  lemma StripShape(s: string)
    ensures |Strip(s)| <= |s|
    ensures var i, r := |s| - |StripLeft(s)|, Strip(s);
      0 <= i && i + |r| <= |s| && r == s[i..i + |r|] && AllSpace(s[..i]) && AllSpace(s[i + |r|..])
    ensures var r := Strip(s); r == [] || (!IsSpace(r[0]) && !IsSpace(r[|r| - 1]))
  {
    var t := StripLeft(s);
    var r := StripRight(t);
    var i := |s| - |t|;
    StripLeftShape(s);
    StripRightShape(t);
    assert s[i..i + |r|] == t[..|r|];
    assert s[i + |r|..] == t[|r|..];
  }

  /** A text made only of whitespace strips to the empty string. */
  lemma {:induction false} StripBlank(s: string)
    requires AllSpace(s)
    ensures StripLeft(s) == [] && Strip(s) == []
    decreases |s|
  {
    if s != [] {
      StripBlank(s[1..]);
    }
  }

  lemma BlankOutside(s: string, i: int, j: int)
    requires 0 <= i <= j <= |s|
    requires AllSpace(s[..i]) && AllSpace(s[j..])
    ensures forall k | 0 <= k < i :: IsSpace(s[k])
    ensures forall k | j <= k < |s| :: IsSpace(s[k])
  {
    assert forall k | 0 <= k < i :: s[..i][k] == s[k];
    assert forall k | j <= k < |s| :: s[j..][k - j] == s[k];
  }

  /** `Strip` removes exactly the surrounding whitespace: the contract above determines the
      result, whatever the text between the blanks is. */
  lemma StripSurrounded(a: string, t: string, b: string)
    requires AllSpace(a) && AllSpace(b)
    requires t == [] || (!IsSpace(t[0]) && !IsSpace(t[|t| - 1]))
    ensures Strip(a + t + b) == t
  {
    var s := a + t + b;
    if t == [] {
      assert forall k | 0 <= k < |s| :: IsSpace(s[k]);
      StripBlank(s);
    } else {
      StripShape(s);
      var i := |s| - |StripLeft(s)|;
      var r := Strip(s);
      var j := i + |r|;
      assert s[|a|] == t[0] && s[|a| + |t| - 1] == t[|t| - 1];
      BlankOutside(s, i, j);
      assert i <= |a|;
      assert j >= |a| + |t|;
      assert r[0] == s[i] && r[|r| - 1] == s[j - 1];
      assert i >= |a| by {
        assert forall k | 0 <= k < |a| :: IsSpace(s[k]);
      }
      assert j <= |a| + |t| by {
        assert forall k | |a| + |t| <= k < |s| :: IsSpace(s[k]);
      }
      assert s[|a|..|a| + |t|] == t;
    }
  }

  /** A text with no whitespace at either end is its own strip. */
  lemma StripUnpadded(t: string)
    requires t == [] || (!IsSpace(t[0]) && !IsSpace(t[|t| - 1]))
    ensures Strip(t) == t
  {
    assert StripLeft(t) == t;
    assert StripRight(t) == t;
  }

  // ---------------------------------------------------------------------------
  // str.split(sep) and sep.join(parts)
  // ---------------------------------------------------------------------------

  /** `sep.join(parts)`. */
  function JoinWith(parts: seq<string>, sep: string): string {
    if |parts| == 0 then []
    else if |parts| == 1 then parts[0]
    else parts[0] + sep + JoinWith(parts[1..], sep)
  }

  /** `s.split(sep)` for a one-character separator: every piece between separators, empty
      pieces included, so the result always has at least one element and joining it back
      with the separator gives `s` again. */
  function Split(s: string, sep: char): (r: seq<string>)
    ensures |r| >= 1
    ensures forall i | 0 <= i < |r| :: sep !in r[i]
    ensures JoinWith(r, [sep]) == s
    decreases |s|
  {
    if s == [] then [[]]
    else
      var rest := Split(s[1..], sep);
      if s[0] == sep then
        assert [s[0]] + JoinWith(rest, [sep]) == s;
        [[]] + rest
      else
        var r := [[s[0]] + rest[0]] + rest[1..];
        assert |rest| > 1 ==> JoinWith(rest, [sep]) == rest[0] + [sep] + JoinWith(rest[1..], [sep]);
        assert r[1..] == rest[1..];
        assert JoinWith(r, [sep]) == [s[0]] + JoinWith(rest, [sep]);
        r
  }

  lemma {:induction false} SplitNoSeparator(x: string, sep: char)
    requires sep !in x
    ensures Split(x, sep) == [x]
    decreases |x|
  {
    if x != [] {
      SplitNoSeparator(x[1..], sep);
      assert [x[0]] + x[1..] == x;
    }
  }

  /** Splitting at a separator splits the two sides independently. */
  lemma {:induction false} SplitConcat(x: string, y: string, sep: char)
    ensures Split(x + [sep] + y, sep) == Split(x, sep) + Split(y, sep)
    decreases |x|
  {
    var s := x + [sep] + y;
    if x == [] {
      assert s[1..] == y;
    } else {
      assert s[1..] == x[1..] + [sep] + y;
      SplitConcat(x[1..], y, sep);
    }
  }

  /** `split` undoes `join` when no part contains the separator: the two are inverses. */
  lemma {:induction false} SplitJoinWith(parts: seq<string>, sep: char)
    requires |parts| >= 1
    requires forall i | 0 <= i < |parts| :: sep !in parts[i]
    ensures Split(JoinWith(parts, [sep]), sep) == parts
    decreases |parts|
  {
    if |parts| == 1 {
      SplitNoSeparator(parts[0], sep);
    } else {
      SplitJoinWith(parts[1..], sep);
      SplitNoSeparator(parts[0], sep);
      SplitConcat(parts[0], JoinWith(parts[1..], [sep]), sep);
      assert parts == [parts[0]] + parts[1..];
    }
  }

  // ---------------------------------------------------------------------------
  // Occurrences of a pattern, and the rest of a line
  // ---------------------------------------------------------------------------

  /** `pat` occurs in `s` starting at index `i`. */
  predicate IsAt(s: string, pat: string, i: int) {
    0 <= i && i + |pat| <= |s| && s[i..i + |pat|] == pat
  }

  /** The last index at or below `n` where `pat` occurs in `s`. */
  function LastAtOrBelow(s: string, pat: string, n: nat): Option<nat> {
    if IsAt(s, pat, n) then Some(n)
    else if n == 0 then None
    else LastAtOrBelow(s, pat, n - 1)
  }

  /** The index of the last occurrence of `pat` in `s`, if any. */
  function LastIndexOf(s: string, pat: string): Option<nat> {
    LastAtOrBelow(s, pat, |s|)
  }

  /** The search from `n` downwards finds the last occurrence at or below `n`, and finds
      nothing exactly when there is none. */
  lemma {:induction false} LastAtOrBelowFinds(s: string, pat: string, n: nat)
    ensures var r := LastAtOrBelow(s, pat, n);
      && (r.Some? ==> r.value <= n && IsAt(s, pat, r.value) && forall j | r.value < j <= n :: !IsAt(s, pat, j))
      && (r.None? ==> forall j | 0 <= j <= n :: !IsAt(s, pat, j))
  {
    if !IsAt(s, pat, n) && n > 0 {
      LastAtOrBelowFinds(s, pat, n - 1);
    }
  }

  /** `LastIndexOf` finds the last occurrence of the pattern, and finds nothing exactly when
      the pattern does not occur. */
  lemma LastIndexOfFinds(s: string, pat: string)
    ensures var r := LastIndexOf(s, pat);
      && (r.Some? ==> IsAt(s, pat, r.value) && forall j | r.value < j :: !IsAt(s, pat, j))
      && (r.None? ==> forall j :: !IsAt(s, pat, j))
  {
    LastAtOrBelowFinds(s, pat, |s|);
  }

  /** The longest prefix of `t` that holds no newline: what the regular expression `(.*)`
      captures, since `.` matches every character except the newline. */
  function TakeLine(t: string): (r: string)
    ensures |r| <= |t| && r == t[..|r|]
    ensures '\n' !in r
    ensures |r| == |t| || t[|r|] == '\n'
  {
    if t == [] || t[0] == '\n' then [] else [t[0]] + TakeLine(t[1..])
  }

  // ---------------------------------------------------------------------------
  // Decimal integers: int(text) and its rendering
  // ---------------------------------------------------------------------------

  predicate IsDigit(c: char) {
    '0' <= c <= '9'
  }

  predicate AllDigits(s: string) {
    forall k | 0 <= k < |s| :: IsDigit(s[k])
  }

  function DigitsValue(ds: string): nat
    requires AllDigits(ds)
  {
    if ds == [] then 0
    else 10 * DigitsValue(ds[..|ds| - 1]) + ((ds[|ds| - 1] as int) - ('0' as int))
  }

  function DigitChar(d: nat): (c: char)
    requires d < 10
  {
    (('0' as int) + d) as char
  }

  /** The decimal rendering of a natural number, without leading zeros. */
  function ShowNat(n: nat): (r: string)
    ensures |r| >= 1 && AllDigits(r)
  {
    if n < 10 then [DigitChar(n)] else ShowNat(n / 10) + [DigitChar(n % 10)]
  }

  /** `str(i)`. */
  function ShowInt(i: int): string {
    if i < 0 then "-" + ShowNat(-i) else ShowNat(i)
  }

  /** `int(text)` for a decimal literal: surrounding whitespace is ignored, one optional sign,
      then at least one digit. Anything else makes `int` raise, here `None`. */
  function ParseInt(text: string): Option<int> {
    var t := Strip(text);
    if |t| > 0 && (t[0] == '-' || t[0] == '+') then
      if |t| > 1 && AllDigits(t[1..]) then
        var magnitude: int := DigitsValue(t[1..]);
        Some(if t[0] == '-' then -magnitude else magnitude)
      else None
    else if |t| > 0 && AllDigits(t) then Some(DigitsValue(t))
    else None
  }

  lemma {:induction false} DigitsValueShowNat(n: nat)
    ensures DigitsValue(ShowNat(n)) == n
  {
    if n >= 10 {
      DigitsValueShowNat(n / 10);
      var s := ShowNat(n);
      assert s[..|s| - 1] == ShowNat(n / 10);
    }
  }

  /** `int(str(i)) == i`: the integer parser reads back every rendered integer. */
  lemma ParseIntShowInt(i: int)
    ensures ParseInt(ShowInt(i)) == Some(i)
  {
    var s := ShowInt(i);
    var digits := if i < 0 then -i else i;
    DigitsValueShowNat(digits);
    assert !IsSpace(s[0]) && !IsSpace(s[|s| - 1]);
    StripUnpadded(s);
    if i < 0 {
      assert s[1..] == ShowNat(digits);
    } else {
      assert s == ShowNat(digits);
    }
  }
}

=== FILE: trace.dfy ===
/** The kinds of event the installer leaves in the trace, and how statements about the
    events from some position on carry over as the trace grows. */
module Trace {
  import opened Paths
  import opened HostModel
  import opened Removal

  /** A `pkgutil` query: it reads receipts and changes nothing. */
  predicate IsProbe(e: Event) {
    e.Ran? && |e.cmd| >= 2 && e.cmd[0] == Pkgutil && e.cmd[1] in {"--pkg-info", "--files", "--pkgs"}
  }

  /** A run of the package installer. */
  predicate IsInstall(e: Event) {
    e.Ran? && |e.cmd| >= 1 && e.cmd[0] == InstallerTool
  }

  /** A step of an uninstall: a deletion, or dropping a receipt. */
  predicate IsRemoval(e: Event) {
    e.RemovedTree? || e.RemovedFile? || (e.Ran? && |e.cmd| >= 2 && e.cmd[0] == Pkgutil && e.cmd[1] == "--forget")
  }

  /** Every event from position `from` on is a probe. */
  predicate OnlyProbes(evs: seq<Event>, from: nat) {
    forall i | from <= i < |evs| :: IsProbe(evs[i])
  }

  /** No event from position `from` on runs the installer. */
  predicate NoInstall(evs: seq<Event>, from: nat) {
    forall i | from <= i < |evs| :: !IsInstall(evs[i])
  }

  /** No event from position `from` on removes anything. */
  predicate NoRemoval(evs: seq<Event>, from: nat) {
    forall i | from <= i < |evs| :: !IsRemoval(evs[i])
  }

  /** `before` is a prefix of `after`: events are only ever appended. */
  predicate Extends(before: seq<Event>, after: seq<Event>) {
    |before| <= |after| && after[..|before|] == before
  }

  /** The three kinds of event exclude one another. */
  lemma KindsDisjoint(e: Event)
    ensures !(IsProbe(e) && IsInstall(e))
    ensures !(IsProbe(e) && IsRemoval(e))
    ensures !(IsInstall(e) && IsRemoval(e))
  {
    assert |Pkgutil| != |InstallerTool|;
  }

  /** A trace of probes neither installs nor removes. */
  lemma ProbesAreHarmless(evs: seq<Event>, from: nat)
    requires OnlyProbes(evs, from)
    ensures NoInstall(evs, from) && NoRemoval(evs, from)
  {
    forall i | from <= i < |evs|
      ensures !IsInstall(evs[i]) && !IsRemoval(evs[i])
    {
      KindsDisjoint(evs[i]);
    }
  }

  /** What each command the installer builds is. */
  lemma CommandKinds(packageId: string, volume: string, pkgPath: string, target: string)
    ensures IsProbe(Ran(PkgInfoCommand(packageId, volume)))
    ensures IsProbe(Ran(FilesCommand(packageId, volume)))
    ensures IsProbe(Ran(ListCommand(volume)))
    ensures IsRemoval(Ran(ForgetCommand(packageId, volume)))
    ensures !IsInstall(Ran(ForgetCommand(packageId, volume)))
    ensures IsInstall(Ran(InstallCommand(pkgPath, target)))
    ensures !IsRemoval(Ran(InstallCommand(pkgPath, target)))
  {
    assert |Pkgutil| != |InstallerTool|;
  }

  /** Appending `x` to `a`: what holds of the new events is what holds of `x`. */
  lemma Append(a: seq<Event>, x: seq<Event>)
    ensures Extends(a, a + x)
    ensures OnlyProbes(a + x, |a|) <==> OnlyProbes(x, 0)
    ensures NoInstall(a + x, |a|) <==> NoInstall(x, 0)
    ensures NoRemoval(a + x, |a|) <==> NoRemoval(x, 0)
  {
    assert (a + x)[..|a|] == a;
    assert forall i | 0 <= i < |x| :: (a + x)[|a| + i] == x[i];
  }

  /** Statements about the events from `n` on, made in two stretches, join up. */
  lemma Chain(a: seq<Event>, b: seq<Event>, n: nat)
    requires n <= |a| && Extends(a, b)
    ensures OnlyProbes(a, n) && OnlyProbes(b, |a|) ==> OnlyProbes(b, n)
    ensures NoInstall(a, n) && NoInstall(b, |a|) ==> NoInstall(b, n)
    ensures NoRemoval(a, n) && NoRemoval(b, |a|) ==> NoRemoval(b, n)
  {
    assert forall i | 0 <= i < |a| :: b[i] == b[..|a|][i];
  }

  /** An event appended to the trace is among the events after any earlier position. */
  lemma AppendedAfter(a: seq<Event>, x: Event, n: nat)
    requires n <= |a|
    ensures x in (a + [x])[n..]
  {
    assert (a + [x])[n..][|a| - n] == x;
  }

  /** Being a prefix is transitive. */
  lemma ExtendsTransitive(a: seq<Event>, b: seq<Event>, c: seq<Event>)
    requires Extends(a, b) && Extends(b, c)
    ensures Extends(a, c)
  {
    assert c[..|a|] == c[..|b|][..|a|];
  }

  /** The events from position `n` on are exactly `run`. */
  ghost predicate RanFrom(evs: seq<Event>, n: nat, run: seq<Event>) {
    n <= |evs| && evs[n..] == run
  }

  /** What `run_module` runs to remove a package it is confident to remove, in order:
      `package_files` (the receipt query and the listing), then `uninstall`, which asks
      the same two queries again, performs the removals `sweep` of its manifest, and
      drops the receipt. */
  function RemovalRun(packageId: string, volume: string, sweep: seq<Event>): seq<Event>
  {
    [Ran(PkgInfoCommand(packageId, volume)), Ran(FilesCommand(packageId, volume))]
    + [Ran(PkgInfoCommand(packageId, volume)), Ran(FilesCommand(packageId, volume))]
    + sweep + [Ran(ForgetCommand(packageId, volume))]
  }

  /** `package_files` followed by an `uninstall` that succeeds is a removal run. */
  lemma RemovalRunFrom(e0: seq<Event>, e1: seq<Event>, evs: seq<Event>, packageId: string, volume: string,
                       sweep: seq<Event>)
    requires e1 == e0 + [Ran(PkgInfoCommand(packageId, volume))] + [Ran(FilesCommand(packageId, volume))]
    requires evs == e1 + [Ran(PkgInfoCommand(packageId, volume))] + [Ran(FilesCommand(packageId, volume))]
                    + sweep + [Ran(ForgetCommand(packageId, volume))]
    ensures RanFrom(evs, |e0|, RemovalRun(packageId, volume, sweep))
  {
    var q, l := Ran(PkgInfoCommand(packageId, volume)), Ran(FilesCommand(packageId, volume));
    var tail := sweep + [Ran(ForgetCommand(packageId, volume))];
    assert evs == (e0 + [q, l]) + ([q, l] + tail) by {
      assert e1 == e0 + [q, l];
      assert evs == e1 + ([q, l] + tail);
    }
    assert evs == e0 + ([q, l] + [q, l] + tail);
    assert evs[|e0|..] == [q, l] + [q, l] + tail;
  }

  /** A removal run drops the receipt once, as its last step, after every removal; before
      that come four queries and then removals of manifest paths, no path twice; and it
      never runs the installer. */
  lemma RemovalRunShape(packageId: string, volume: string, fs: FileSystem, cwd: string,
                        manifest: seq<string>)
    ensures var run := RemovalRun(packageId, volume, SweepEvents(fs, cwd, manifest));
      && run[|run| - 1] == Ran(ForgetCommand(packageId, volume))
      && (forall i | 0 <= i < |run| - 1 :: run[i] != Ran(ForgetCommand(packageId, volume)))
      && (forall i | 0 <= i < 4 :: IsProbe(run[i]))
      && (forall i | 4 <= i < |run| - 1 :: (run[i].RemovedTree? || run[i].RemovedFile?) && run[i].path in manifest)
      && (forall i, j | 4 <= i < j < |run| - 1 :: run[i].path != run[j].path)
      && NoInstall(run, 0)
  {
    SweepEventsRemovals(fs, cwd, manifest);
    RunShape(packageId, volume, SweepEvents(fs, cwd, manifest), manifest);
  }

  /** `RemovalRunShape` for any `sweep` of distinct removals of manifest paths. */
  lemma RunShape(packageId: string, volume: string, sweep: seq<Event>, manifest: seq<string>)
    requires forall i | 0 <= i < |sweep| :: (sweep[i].RemovedTree? || sweep[i].RemovedFile?) && sweep[i].path in manifest
    requires forall i, j | 0 <= i < j < |sweep| :: sweep[i].path != sweep[j].path
    ensures var run := RemovalRun(packageId, volume, sweep);
      && run[|run| - 1] == Ran(ForgetCommand(packageId, volume))
      && (forall i | 0 <= i < |run| - 1 :: run[i] != Ran(ForgetCommand(packageId, volume)))
      && (forall i | 0 <= i < 4 :: IsProbe(run[i]))
      && (forall i | 4 <= i < |run| - 1 :: (run[i].RemovedTree? || run[i].RemovedFile?) && run[i].path in manifest)
      && (forall i, j | 4 <= i < j < |run| - 1 :: run[i].path != run[j].path)
      && NoInstall(run, 0)
  {
    var run := RemovalRun(packageId, volume, sweep);
    CommandKinds(packageId, volume, "", "");
    assert PkgInfoCommand(packageId, volume) != ForgetCommand(packageId, volume);
    assert FilesCommand(packageId, volume) != ForgetCommand(packageId, volume);
    assert |run| == 5 + |sweep|;
    assert forall i | 4 <= i < |run| - 1 :: run[i] == sweep[i - 4];
    forall i | 0 <= i < 4
      ensures !IsInstall(run[i])
    {
      KindsDisjoint(run[i]);
    }
  }

  /** The removal loop only removes. */
  lemma SweepKinds(fs: FileSystem, cwd: string, files: seq<string>)
    ensures NoInstall(SweepEvents(fs, cwd, files), 0)
    ensures forall i | 0 <= i < |SweepEvents(fs, cwd, files)| :: IsRemoval(SweepEvents(fs, cwd, files)[i])
  {
    SweepEventsRemovals(fs, cwd, files);
  }

  /** The trace an uninstall leaves after its listing: the removals, then dropping the
      receipt. It extends what came before and runs no installer. */
  lemma UninstallTrace(before: seq<Event>, sweep: seq<Event>, packageId: string, volume: string)
    requires NoInstall(sweep, 0)
    ensures var after := before + sweep + [Ran(ForgetCommand(packageId, volume))];
      Extends(before, after) && NoInstall(after, |before|)
  {
    CommandKinds(packageId, volume, "", "");
    Append(before, sweep + [Ran(ForgetCommand(packageId, volume))]);
    Append(sweep, [Ran(ForgetCommand(packageId, volume))]);
    assert before + sweep + [Ran(ForgetCommand(packageId, volume))]
           == before + (sweep + [Ran(ForgetCommand(packageId, volume))]);
  }
}

=== FILE: transcript.dfy ===
/** Reading the transcripts printed by `pkgutil`: the `key: value` fields of `--pkg-info`,
    the relative paths of `--files` (turned into the package's file manifest), the package
    ids of `--pkgs`, and the set difference of two such listings. */
module Transcript {
  import opened Errors
  import opened Text
  import opened Paths

  // ---------------------------------------------------------------------------
  // parse_out
  // ---------------------------------------------------------------------------

  /** `parse_out(key, std_out)`. The pattern `[\s\S]*key: (.*)` is anchored at the start and
      its leading part is greedy, so the match uses the LAST place where `key: ` occurs, and
      the value is the rest of that line. No occurrence raises the key-not-found error,
      which carries the key and the whole transcript. */
  function ParseOut(key: string, out: string): (r: Result<string>)
    ensures r.Err? ==> r.error == KeyNotFound(key, out)
  {
    var pat := key + ": ";
    match LastIndexOf(out, pat)
    case None => Err(KeyNotFound(key, out))
    case Some(i) =>
      LastIndexOfFinds(out, pat);
      Ok(TakeLine(out[i + |pat|..]))
  }

  /** The key is found exactly when `key: ` occurs, and the value read is the rest of the
      line after its last occurrence, which holds no newline. */
  lemma ParseOutMeaning(key: string, out: string)
    ensures ParseOut(key, out).Err? <==> forall j :: !IsAt(out, key + ": ", j)
    ensures ParseOut(key, out).Ok? ==> '\n' !in ParseOut(key, out).value
    ensures ParseOut(key, out).Ok? ==>
      exists i :: IsAt(out, key + ": ", i)
                  && (forall j | i < j :: !IsAt(out, key + ": ", j))
                  && ParseOut(key, out).value == TakeLine(out[i + |key| + 2..])
  {
    LastIndexOfFinds(out, key + ": ");
  }

  /** The last `key: ` line wins: whatever precedes it (other values for the same key
      included), the value read is the one on that line. */
  lemma ParseOutLastLine(key: string, before: string, v: string, after: string)
    requires '\n' !in v
    requires after == [] || after[0] == '\n'
    requires forall j | |before| < j :: !IsAt(before + key + ": " + v + after, key + ": ", j)
    ensures ParseOut(key, before + key + ": " + v + after) == Ok(v)
  {
    var out := before + key + ": " + v + after;
    var pat := key + ": ";
    LineShape(before, key, v, after);
    ParseOutMeaning(key, out);
    var r := ParseOut(key, out);
    var i :| IsAt(out, pat, i) && (forall j | i < j :: !IsAt(out, pat, j))
             && r.value == TakeLine(out[i + |key| + 2..]);
    assert i == |before|;
    TakeLineOfLine(v, after);
  }

  lemma LineShape(before: string, key: string, v: string, after: string)
    ensures var out := before + key + ": " + v + after;
      IsAt(out, key + ": ", |before|) && out[|before| + |key| + 2..] == v + after
  {
    var out := before + key + ": " + v + after;
    var pat := key + ": ";
    assert out == (before + pat) + (v + after);
    assert out[|before|..|before| + |pat|] == pat;
  }

  /** The rest of a line that ends at a newline (or at the end of the text) is that line. */
  lemma {:induction false} TakeLineOfLine(v: string, after: string)
    requires '\n' !in v
    requires after == [] || after[0] == '\n'
    ensures TakeLine(v + after) == v
    decreases |v|
  {
    if v == [] {
      assert v + after == after;
    } else {
      assert (v + after)[1..] == v[1..] + after;
      TakeLineOfLine(v[1..], after);
      assert [v[0]] + v[1..] == v;
    }
  }

  // ---------------------------------------------------------------------------
  // parse_pkg_info
  // ---------------------------------------------------------------------------

  /** The record `parse_pkg_info` builds (the local-time rendering of the install time is
      not part of the model). */
  datatype PkgRecord = PkgRecord(
    packageId: string,
    version: string,
    volume: string,
    location: string,
    rootDir: string,
    installTimestamp: int)

  /** `parse_pkg_info(std_out)`: the install time is read and converted first, then the
      volume and location, then the package id and version; the first failure is reported.
      The root directory is `realpath(volume + '/' + location)`. */
  function ParsePkgInfo(out: string, cwd: string): Result<PkgRecord> {
    var installTime :- ParseOut("install-time", out);
    var timestamp :- match ParseInt(installTime)
                     case None => Err(NotAnInteger(installTime))
                     case Some(n) => Ok(n);
    var volume :- ParseOut("volume", out);
    var location :- ParseOut("location", out);
    var packageId :- ParseOut("package-id", out);
    var version :- ParseOut("version", out);
    Ok(PkgRecord(packageId, version, volume, location,
                 Realpath(cwd, volume + "/" + location), timestamp))
  }

  /** What a parsed receipt holds: the fields are the values `parse_out` reads, the install
      time is the integer the `install-time` value spells, and the root directory is the
      resolved concatenation of volume and location. The receipt parses exactly when every
      field is found and the install time is an integer; a missing install time or one that
      is not an integer is the error reported. */
  lemma ParsePkgInfoMeaning(out: string, cwd: string)
    ensures var r, time := ParsePkgInfo(out, cwd), ParseOut("install-time", out);
      && (time.Err? ==> r == Err(KeyNotFound("install-time", out)))
      && (time.Ok? && ParseInt(time.value).None? ==> r == Err(NotAnInteger(time.value)))
      && (r.Ok? <==> time.Ok? && ParseInt(time.value).Some?
                     && ParseOut("volume", out).Ok? && ParseOut("location", out).Ok?
                     && ParseOut("package-id", out).Ok? && ParseOut("version", out).Ok?)
    ensures var r := ParsePkgInfo(out, cwd);
      r.Ok? ==>
        && Some(r.value.installTimestamp) == ParseInt(ParseOut("install-time", out).value)
        && ParseOut("package-id", out) == Ok(r.value.packageId)
        && ParseOut("version", out) == Ok(r.value.version)
        && ParseOut("volume", out) == Ok(r.value.volume)
        && ParseOut("location", out) == Ok(r.value.location)
        && r.value.rootDir == Realpath(cwd, r.value.volume + "/" + r.value.location)
  {
  }

  /** The root directory is the location walked from the volume, even when the location
      is written as an absolute path (the two are concatenated, not joined). It lies
      beneath the volume unless the location climbs out of it with `..`. */
  lemma RootDirFromVolume(out: string, cwd: string)
    requires ParsePkgInfo(out, cwd).Ok?
    requires ParsePkgInfo(out, cwd).value.volume != ""
    ensures var info := ParsePkgInfo(out, cwd).value;
      Resolve(cwd, info.rootDir) == Walk(Resolve(cwd, info.volume), SplitPath(info.location))
  {
    var info := ParsePkgInfo(out, cwd).value;
    ParsePkgInfoMeaning(out, cwd);
    RealpathIdempotent(cwd, info.volume + "/" + info.location);
    ResolveSlashConcat(cwd, info.volume, info.location);
  }

  /** On the startup volume `/`, a location written as resolved components gives the root
      directory `/` followed by that location, with no doubled slash. */
  lemma RootDirOnStartupVolume(cwd: string, location: Path)
    requires |location| > 0 && Canonical(location)
    ensures Realpath(cwd, "/" + "/" + JoinWith(location, "/")) == "/" + JoinWith(location, "/")
  {
    var l := JoinWith(location, "/");
    ResolveSlashConcat(cwd, "/", l);
    ResolveRoot(cwd);
    assert forall i | 0 <= i < |location| :: '/' !in location[i];
    SplitJoinWith(location, '/');
    assert SplitPath(l) == location;
    WalkCanonical([], location);
    assert Resolve(cwd, "/" + "/" + l) == location;
  }

  // ---------------------------------------------------------------------------
  // parse_package_files
  // ---------------------------------------------------------------------------

  /** The two relative entries the manifest never takes: the empty line and the bare
      `Applications`. The comparison is literal. */
  predicate Kept(line: string) {
    line != "" && line != "Applications"
  }

  /** The manifest of `lines` under `root`: each kept line, in order, joined onto `root`. */
  function Manifest(root: string, lines: seq<string>): seq<string>
    decreases |lines|
  {
    if lines == [] then []
    else
      var last := lines[|lines| - 1];
      Manifest(root, lines[..|lines| - 1]) + (if Kept(last) then [JoinPath(root, last)] else [])
  }

  /** The manifest of one line: that line joined onto the root, unless it is excluded. */
  lemma ManifestOne(root: string, line: string)
    ensures Manifest(root, [line]) == if Kept(line) then [JoinPath(root, line)] else []
  {
    assert [line][..0] == [];
  }

  /** Building a manifest keeps the input order: the manifest of two listings one after the
      other is the two manifests one after the other. */
  lemma {:induction false} ManifestConcat(root: string, a: seq<string>, b: seq<string>)
    ensures Manifest(root, a + b) == Manifest(root, a) + Manifest(root, b)
    decreases |b|
  {
    if b == [] {
      assert a + b == a;
    } else {
      var b' := b[..|b| - 1];
      assert (a + b)[..|a + b| - 1] == a + b';
      assert (a + b)[|a + b| - 1] == b[|b| - 1];
      ManifestConcat(root, a, b');
    }
  }

  /** Exactly the kept lines appear, each joined onto the root, and nothing else. */
  lemma {:induction false} ManifestMembers(root: string, lines: seq<string>, x: string)
    ensures x in Manifest(root, lines) <==> exists l | l in lines :: Kept(l) && x == JoinPath(root, l)
    decreases |lines|
  {
    if lines != [] {
      var init, last := lines[..|lines| - 1], lines[|lines| - 1];
      ManifestMembers(root, init, x);
      assert lines == init + [last];
      if x in Manifest(root, lines) {
        if x !in Manifest(root, init) {
          assert Kept(last) && x == JoinPath(root, last);
        }
      }
      if exists l | l in lines :: Kept(l) && x == JoinPath(root, l) {
        var l :| l in lines && Kept(l) && x == JoinPath(root, l);
        if l != last {
          assert l in init;
        }
      }
    }
  }

  /** The manifest is never longer than the listing it comes from. */
  lemma {:induction false} ManifestLength(root: string, lines: seq<string>)
    ensures |Manifest(root, lines)| <= |lines|
    decreases |lines|
  {
    if lines != [] {
      ManifestLength(root, lines[..|lines| - 1]);
    }
  }

  /** `parse_package_files(root_dir, std_out)`: a loop over the lines of the `--files`
      output that appends each kept line, joined onto the root. */
  method ParsePackageFiles(root: string, out: string) returns (files: seq<string>)
    ensures files == Manifest(root, Split(out, '\n'))
  {
    var lines := Split(out, '\n');
    files := [];
    for i := 0 to |lines|
      invariant files == Manifest(root, lines[..i])
    {
      var pathTail := lines[i];
      assert lines[..i + 1][..i] == lines[..i];
      if pathTail != "" && pathTail != "Applications" {
        files := files + [JoinPath(root, pathTail)];
      }
    }
    assert lines[..|lines|] == lines;
  }

  // ---------------------------------------------------------------------------
  // list_all_packages and find_new_packages
  // ---------------------------------------------------------------------------

  /** `out.strip().split('\n')`: the package ids of a `--pkgs` listing. */
  function PackageList(out: string): (r: seq<string>)
    ensures |r| >= 1
    ensures forall i | 0 <= i < |r| :: '\n' !in r[i]
    ensures JoinWith(r, "\n") == Strip(out)
  {
    Split(Strip(out), '\n')
  }

  /** A listing of ids, one per line, padded with blank space at either end, reads back
      as exactly those ids. */
  lemma PackageListOfLines(ids: seq<string>, a: string, b: string)
    requires |ids| >= 1
    requires forall i | 0 <= i < |ids| :: '\n' !in ids[i]
    requires AllSpace(a) && AllSpace(b)
    requires var t := JoinWith(ids, "\n"); t == [] || (!IsSpace(t[0]) && !IsSpace(t[|t| - 1]))
    ensures PackageList(a + JoinWith(ids, "\n") + b) == ids
  {
    StripSurrounded(a, JoinWith(ids, "\n"), b);
    SplitJoinWith(ids, '\n');
  }

  /** `list(set(latest) - set(baseline))`: the ids of the latest listing that the baseline
      lacks, each once. Python leaves the order of the list unspecified; this one keeps the
      order of first appearance in `latest`. */
  function NewPackages(latest: seq<string>, baseline: seq<string>): (r: seq<string>)
    ensures forall x :: x in r <==> x in latest && x !in baseline
    ensures forall i, j | 0 <= i < j < |r| :: r[i] != r[j]
    decreases |latest|
  {
    if latest == [] then []
    else
      var rest := NewPackages(latest[..|latest| - 1], baseline);
      var x := latest[|latest| - 1];
      assert forall y :: y in latest <==> y in latest[..|latest| - 1] || y == x;
      if x in baseline || x in rest then rest else rest + [x]
  }
}
